=== FILE: README.md ===
# Face-emotion overlay: a Dafny model

This project models the annotation pipeline of a browser extension and its detection backend.

- **Backend.** A Python `/detect` endpoint takes an image, a video or a single camera frame. It answers with fixed-shape JSON holding faces, boxes and emotions. A module-level throttle limits how often camera frames reach the classifier.
- **Popup.** The extension popup draws the returned boxes onto an overlay canvas laid over the image, video or camera preview. Each box gets a label band and an emoji icon.
- **Polling loops.** The popup polls the backend from two interval loops, one for video and one for the camera.
- **Mode switching.** The popup switches between image, video and camera modes, tearing down whatever is running.
- **Content script.** A content script draws faces onto a full-window overlay in the page: a box, a dominant-emotion label and an optional panel of ranked emotion bars.
- **Emoji table.** The backend keeps an emotion-to-emoji table and its inverse.

Drawing is modelled as the list of 2D-context calls emitted (`clearRect`, `strokeRect`, `fillRect`, `fillText`), not as pixels.

Numbers are exact reals (`real`), with these exceptions:
- JavaScript's `Math.round` is floor(x + 0.5).
- JavaScript's `%` keeps the dividend's sign.
- `toFixed` rounds half away from zero on the exact value.
- `Math.floor` of a rendered CSS size gives a canvas's integer pixel size.
- A JavaScript value that can be `undefined` in arithmetic is a `Num` (finite or NaN). The canvas ignores a call with a NaN argument, so such a call emits nothing.

Modules:

- `Base`: `Option`, `ConcatMap` (flat-map) and its slicing lemmas, `Filter`.
- `Text`: decimal rendering and parsing for `String(n)`, `padStart`, `toFixed`, `parseFloat`, ASCII `toLowerCase` and `slice(0, n)`, with round-trip lemmas.
- `Canvas`: the command datatype and NaN-aware command builders.
- `JsLookup`: `table[key] || fallback` on an object literal, including keys inherited from `Object.prototype`.
- `Emotions`: `EMOTION_TO_EMOJI` and its computed inverse.
- `Api`: the `/detect` dispatcher and its camera throttle.
- `PopupRender`: `drawFaceDetection`, `drawEmotionLabel`, `getEmotionEmoji`, `formatTime` and the faces extraction of `drawImageDetection`.
- `PopupLoop`: the video and camera polling ticks, split into firing and settling.
- `PopupModes`: mode switching and teardown as transitions of one state record. Intervals and streams are tracked as resources so that leaks can be stated.
- `Ranking`: the dominant-emotion fold and the detail panel's stable descending sort and top-5 cut.
- `ContentRender`: the content script's `drawFaces`, `drawEmotionDetails` and `getEmotionColor`.
- `ContentOverlay`: the content script's overlay lifecycle (inject, clear, update, resize).

In these places the code behaves differently from what a reader might expect, and the model follows the code:

- **Content-script label.** The label of a face that carries an `emotions` object never falls back to its `emotion` field, even when no emotion wins (extension/content.js:124-138 is an `if … else if`). The default label `人脸` is used instead.
- **Polling period.** Both loops run every `frameInterval`, which is 1000 ms (extension/popup.js:10), although the comments beside it say ten seconds. No property here depends on the period.
- **Polling loops.** Both popup loops send `input_type` `image`, not `camera` (extension/popup.js:408, 693). So the popup's traffic never goes through the backend throttle.

## Model

| member | source | states |
|---|---|---|
| Api.Detect | backend/api.py:33-76 | An empty image or camera upload makes `cv2.imdecode` raise, so the handler answers HTTP 500 and the throttle is untouched. Image requests: an undecodable image gives only the `Invalid image` error; otherwise one result with frame index 0 holding the predicted faces. Video requests: `frame_count` equals the number of results. Camera requests: an undecodable frame gives `Invalid frame` before the throttle is consulted; a frame under 0.5 s after the last analysed one gets one empty result; an accepted frame moves the throttle to now. Any other input type gets the fixed error. Only an accepted camera frame changes the throttle. |
| Api.Serve | backend/api.py:24-73 | Over a sequence of requests, the throttle either stays where it was or ends at least `PROCESS_INTERVAL` later. When it moves, it ends at the clock reading of one of the camera requests. |
| Api.AcceptedTimes | backend/api.py:66-72 | The camera frames that reach the predictor in a request sequence are at most as many as the requests. |
| Api.ThrottleSpacing | backend/api.py:24-25 | Over any request sequence, whatever the clock does, analysed camera frames are pairwise at least `PROCESS_INTERVAL` apart in order. The first is at least that far from the starting `last_processed_time`. The final throttle state is the last analysed frame's time, or unchanged if none was analysed. |
| Api.NonCameraKeepsThrottle | backend/api.py:44-58 | A sequence of image, video or invalid-type requests leaves `last_processed_time` unchanged and analyses no camera frame. |
| Api.NoCameraNoneAccepted | backend/api.py:61-73 | Without camera requests no frame passes the throttle. |
| Emotions.Build | backend/utils/emotions.py:2-10 | A dict built from key/value pairs contains every key, and each entry comes from some pair. |
| Emotions.Swap | backend/utils/emotions.py:12 | The inverse comprehension's input is the pairs with key and value exchanged, position by position. |
| Emotions.BuildLookup | backend/utils/emotions.py:2-10 | With distinct keys, each pair's key maps to that pair's value. |
| Emotions.BuildSize | backend/utils/emotions.py:2-10 | With distinct keys, the dict has exactly as many entries as pairs. |
| Emotions.SwapDistinct | backend/utils/emotions.py:12 | Distinct values become distinct keys of the inverse. |
| Emotions.TableShape | backend/utils/emotions.py:2-10 | The forward table has seven pairs, its labels are pairwise distinct, its seven emoji are pairwise distinct, and its keys are exactly the seven classifier labels. |
| Emotions.LabelsListed | backend/utils/emotions.py:2-10 | Every listed label is one of the seven labels, and every one of the seven is a key of the table. |
| Emotions.LabelRoundTrip | backend/utils/emotions.py:12 | `EMOJI_TO_EMOTION[EMOTION_TO_EMOJI[k]] == k` for every label `k`. |
| Emotions.EmojiRoundTrip | backend/utils/emotions.py:12 | `EMOTION_TO_EMOJI[EMOJI_TO_EMOTION[e]] == e` for every emoji `e` of the inverse. |
| Emotions.InverseSize | backend/utils/emotions.py:12 | The inverse has as many entries as the forward table: seven. |
| Emotions.SharedEmojiKeepsLastLabel | backend/utils/emotions.py:12 | The round trip needs distinct values: if two labels shared an emoji, the inverse would keep only the later label. |
| JsLookup.Get | extension/popup.js:237 | An object-literal lookup finds an own entry exactly when the key is in the literal. Otherwise it finds an inherited `Object.prototype` member exactly when the key names one. |
| JsLookup.OrAsWritten | extension/content.js:210 | `table[key] \|\| fallback` is never `undefined`. It yields an inherited member exactly when the key is not in the table but names a prototype member. |
| JsLookup.OrDefault | extension/popup.js:237 | The lookup restricted to the table's own entries gives the fallback or the key's entry, and the key's entry whenever it is non-empty. |
| JsLookup.OwnLookupAgrees | extension/content.js:210 | For a key in the table, or one not naming a prototype member, the lookup as written and the own-entry lookup agree. |
| Canvas.CanvasSize | extension/popup.js:136-144 | Setting a canvas's `width` to a rendered size gives the integer part of that size. |
| Canvas.StrokeRectN | extension/content.js:112 | `strokeRect` draws exactly when all four arguments are finite numbers, and then draws that rectangle. |
| Canvas.FillRectN | extension/content.js:117 | `fillRect` draws exactly when all four arguments are finite numbers. |
| Canvas.FillTextN | extension/content.js:140 | `fillText` draws exactly when both coordinates are finite numbers. |
| PopupRender.EmotionEmoji | extension/popup.js:227-238 | The icon is the table entry for the lower-cased label, or `😀`. It is never missing, and it differs from `😀` exactly when the lower-cased label is in the table. |
| PopupRender.EmojiAsWritten | extension/popup.js:237 | The lookup as written returns an inherited `Object.prototype` member exactly when the lower-cased label names one. It then returns the inherited member, modelled as `JsLookup.Inherited(name)` (for `constructor` the `Object` function), where the corrected lookup gives `😀`. For every other label it agrees with `PopupRender.EmotionEmoji`. |
| PopupRender.EmojiIgnoresCase | extension/popup.js:237 | Labels differing only in ASCII letter case get the same icon. |
| PopupRender.LabelText | extension/popup.js:204 | The label is the emotion, a space, the percentage and a trailing `%`. |
| PopupRender.LabelRoundTrip | extension/popup.js:204 | Every label text reads back as exactly its emotion and integer percentage, even when the emotion contains spaces. |
| PopupRender.EmotionName | extension/popup.js:193 | `face.emotion \|\| 'unknown'` is never empty. It is the face's emotion or `unknown`. |
| PopupRender.ScorePercent | extension/popup.js:194 | The percentage is within a half of `score * 100`, and 0 when the score is missing. |
| PopupRender.DrawEmotionLabel | extension/popup.js:203-224 | Three commands. The first is a band of height 30 whose bottom edge is the box's top, at least as wide as the box and as the text plus 20, and exactly one of the two. Then the label text at (x+10, y-10). Then the emoji 25 from the band's right end, at height y−10 (the band's top plus 20). The band is filled `rgba(0, 0, 0, 0.7)`; the text is `#FFFFFF` in `bold 16px Arial` and the icon `#FFFFFF` in `20px Arial`. |
| PopupRender.DrawFace | extension/popup.js:175-198 | A face without a four-element box draws nothing. A face with one draws four commands, starting with the box scaled per axis and stroked in `#FF5252`, width 3. |
| PopupRender.FaceLabel | extension/popup.js:193-197 | After the box come the label band commands for the scaled box, the face's emotion name and its percentage. |
| PopupRender.MalformedFaceSkipped | extension/popup.js:175-176 | A face whose box is not a four-element array contributes nothing, and later faces draw as if it were absent. |
| PopupRender.Boxed | extension/popup.js:176 | The faces that are drawn are a subsequence of at most as many faces, each with a four-element box. |
| PopupRender.DrawFacesAt | extension/popup.js:175-190 | The faces yield four commands per drawable face. The `j`-th drawable face's commands start with its box scaled by (sx, sy). |
| PopupRender.DrawFaceDetection | extension/popup.js:147-166 | Nothing at all is drawn exactly when `faces` is falsy. |
| PopupRender.ClearsFirst | extension/popup.js:155-166 | The first command clears the whole resized overlay. With an empty or non-array `faces`, nothing else is drawn. |
| PopupRender.ScaledBoxes | extension/popup.js:168-190 | With positive source dimensions, the overlay gets 1 + 4 × (drawable faces) commands. The `j`-th box drawn is `(x·sx, y·sy, w·sx, h·sy)` with `sx = displayW/srcW` and `sy = displayH/srcH`. |
| PopupRender.DetectionBody | extension/popup.js:160-199 | With faces and positive source dimensions, the output is the clear followed by the faces drawn at display/source scale. |
| PopupRender.DrawnExample | extension/popup.js:169-197 | Concrete case: a box at (10, 20, 100, 50) in a 320 × 240 frame on a 640 × 480 overlay is drawn at (20, 40, 200, 100), labelled `happy 87%` with `😊`. |
| PopupRender.FormatTime | extension/popup.js:480-484 | For a non-negative position the text ends in a colon and two characters. |
| PopupRender.JsRem | extension/popup.js:482 | JavaScript `%` with a positive divisor lies in [0, b) for a non-negative dividend and in (-b, 0] for a negative one. |
| PopupRender.FormatTimeRoundTrip | extension/popup.js:480-484 | For every non-negative position, the `m:ss` text has a two-digit seconds field below 60 and denotes exactly the elapsed whole seconds: `60·m + ss == floor(seconds)`. |
| PopupRender.ClockSplit | extension/popup.js:481-482 | `floor(s/60)` and `floor(s % 60)` are whole minutes and remaining seconds in 0..59 that recompose `floor(s)`. |
| PopupRender.FirstFaces | extension/popup.js:320-321 | A response has faces to draw exactly when `results` is present and non-empty. A missing `faces` field becomes the empty array. |
| PopupRender.SourceSize | extension/popup.js:316-317 | `naturalWidth \|\| width`: the natural size when it is non-zero, else the shown size. |
| PopupRender.DrawImageDetection | extension/popup.js:302-324 | A response without results draws nothing. Otherwise drawing starts by clearing the overlay. |
| PopupRender.ImageFacesScaled | extension/popup.js:313-321 | When the first result has faces and `naturalWidth \|\| width` and `naturalHeight \|\| height` are non-zero, the overlay gets the clear plus four commands per drawable face. The `j`-th box drawn is the `j`-th drawable face's box scaled per axis by overlay size over that source size. |
| PopupRender.ImageOnlyClears | extension/popup.js:313-321 | A first result with no `faces` (read as `[]`), an empty or non-array `faces`, or a zero source size leaves only the clear. |
| PopupLoop.ReplyCommands | extension/popup.js:413-423 | A settled request draws nothing unless the reply parsed and has results. Then it draws the first result's faces. |
| PopupLoop.VideoFire | extension/popup.js:382-389 | A video tick with the video paused or ended, or with the flag raised, changes nothing and sends nothing. Otherwise it raises the flag and sends one frame. |
| PopupLoop.VideoSettle | extension/popup.js:431-433 | However the request ends (thrown, non-2xx or parsed), the `finally` lowers the flag. |
| PopupLoop.VideoStep | extension/popup.js:379-433 | One tick or settlement keeps the loop single-flight. It puts at most one more request in flight, and only a tick that finds the flag lowered does so, raising it. A settlement with a request in flight lowers the flag and takes one request out of flight. |
| PopupLoop.VideoRunSingleFlight | extension/popup.js:379-433 | Over any interleaving of ticks and settlements, the flag is raised exactly while one request is in flight, and never more than one is. |
| PopupLoop.VideoRecoversAfterFailure | extension/popup.js:429-433 | After a failed request the next playing tick sends again. |
| PopupLoop.CameraFire | extension/popup.js:666-675 | A camera tick without a stream stops the loop. Before the preview has a frame size it does nothing. Otherwise it sends a frame, whatever is already in flight. |
| PopupLoop.CameraSettle | extension/popup.js:700-715 | A settled camera request draws what the reply gives and has no flag to lower. |
| PopupLoop.CameraOverlaps | extension/popup.js:666-716 | The camera loop is not single-flight: two ticks in a row put two requests in flight. |
| PopupLoop.LateReplyStillDrawn | extension/popup.js:405-423 | No loop checks for staleness: a parsed reply with results always redraws the overlay, whatever happened since its tick fired. |
| PopupModes.StopVideoAnalysis | extension/popup.js:486-504 | Clears and forgets the video interval, pauses, removes the video overlay. Preserves leak-freedom. |
| PopupModes.StopRealTime | extension/popup.js:721-731 | Clears and forgets the real-time interval and unchecks the toggle. Leaves overlays and the stream alone. Preserves leak-freedom. |
| PopupModes.StopCamera | extension/popup.js:548-573 | Stops real-time detection, stops and forgets the stream, hides the preview, removes the camera overlay. Preserves leak-freedom. |
| PopupModes.StopAllDetections | extension/popup.js:85-91 | Both intervals are stopped. The stream is closed exactly when the current mode is not camera. Preserves leak-freedom. |
| PopupModes.ClearAllOverlays | extension/popup.js:93-104 | No overlay remains. The video is paused and rewound. Intervals and streams are untouched. |
| PopupModes.SwitchMode | extension/popup.js:65-83 | `currentMode = m`, only section `m` is shown and only button `m` is active. Both interval handles are null and the toggle is unchecked. No overlay remains. The stream survives only into camera mode. Preserves leak-freedom. |
| PopupModes.SwitchModeReleases | extension/popup.js:65-91 | From a leak-free state, a mode switch leaves no interval running, and outside camera mode no stream open. |
| PopupModes.SwitchModeIdempotent | extension/popup.js:65-83 | Switching again to the same mode changes nothing. |
| PopupModes.StopVideoAnalysisIdempotent | extension/popup.js:486-504 | Stopping video analysis twice is stopping it once. |
| PopupModes.StopRealTimeIdempotent | extension/popup.js:721-731 | Stopping real-time detection twice is stopping it once. |
| PopupModes.StopCameraIdempotent | extension/popup.js:548-573 | Closing the camera twice is closing it once. |
| PopupModes.StopAllDetectionsIdempotent | extension/popup.js:85-91 | Stopping everything twice equals stopping once, except possibly for the status line. |
| PopupModes.StopAllDetectionsStatus | extension/popup.js:85-91 | The status line does differ: a second call no longer closes the camera, so it ends on the real-time message. |
| PopupModes.LoadVideo | extension/popup.js:327-351 | Choosing a file marks a video as loaded and reloads the preview. Intervals are untouched. |
| PopupModes.StartVideoLoop | extension/popup.js:378-437 | Starting the loop schedules a fresh interval and stores its id as the video handle. |
| PopupModes.AnalyzeVideoAsWritten | extension/popup.js:353-437 | Without a file it only reports the missing video. With one, a fresh interval id becomes the video handle and is added to the running intervals. From a leak-free state the result is leak-free exactly when no video interval was already running. |
| PopupModes.AnalyzeVideo | extension/popup.js:353-437 | The corrected version clears a running video interval before scheduling the new one. Without a file it only reports the missing video. It preserves leak-freedom. |
| PopupModes.AnalyzeTwiceLeaks | extension/popup.js:347-437 | Analyse, choose another file (which re-enables the analyse button), analyse again, then stop everything: the first interval is still running and the state has leaked. |
| PopupModes.StartCamera | extension/popup.js:507-525 | A granted stream is held and shown. |
| PopupModes.CameraReady | extension/popup.js:527-537 | When the preview's metadata loads, the camera overlay is attached. Preserves leak-freedom. |
| PopupModes.StartCameraNoLeaks | extension/popup.js:507-537 | Opening the camera while none is open keeps the state leak-free. |
| PopupModes.SecondStartLeaksStream | extension/popup.js:511 | A second grant while a stream is held overwrites `cameraStream`. Closing the camera then leaves the first stream open. |
| PopupModes.ToggleRealTime | extension/popup.js:646-666 | Checking the toggle schedules the camera interval and attaches the camera overlay. Unchecking it is `stopRealTime`. Preserves leak-freedom. |
| PopupModes.CameraTickWithoutStream | extension/popup.js:667-670 | A camera tick that finds no stream stops the loop. From a leak-free state no stream remains, and only the video interval can still run. |
| PopupModes.StopRealTimeKeepsCameraOverlay | extension/popup.js:721-731 | Stopping the real-time loop leaves the camera overlay attached. |
| Ranking.Dominant | extension/content.js:127-130 | The fold's confidence is non-negative and at least every entry's. Its pick is the initial `('', 0)` or one of the entries. |
| Ranking.DominantIsFirstMax | extension/content.js:127-130 | The fold returns the first entry of greatest positive confidence (strict `>`). |
| Ranking.DominantNone | extension/content.js:127-130 | If no confidence exceeds 0, no emotion is chosen. |
| Ranking.DominantChoosesSome | extension/content.js:127-132 | If some confidence is positive, the fold stops at a first-greatest entry. |
| Ranking.TieGoesToFirst | extension/content.js:129 | With two equally confident emotions, the one listed first wins. |
| Ranking.Insert | extension/content.js:165 | Insertion keeps all entries and adds exactly one. |
| Ranking.InsertDescending | extension/content.js:165 | Inserting into a descending list keeps it descending. |
| Ranking.SortDesc | extension/content.js:164-165 | The sort is a permutation of the entries, in non-increasing confidence. |
| Ranking.SortDescStable | extension/content.js:165 | The sort is stable: entries of equal confidence keep their relative order. |
| Ranking.InsertKeepsTies | extension/content.js:165 | An inserted entry goes ahead of every existing entry of its own confidence, and those keep their order. Inserting each head into its sorted tail is what keeps the sort stable. |
| Ranking.TopRows | extension/content.js:164-166 | The panel shows min(n, 5) rows, in non-increasing confidence, each one of the entries. |
| Ranking.TopRowsAreTop | extension/content.js:166 | The rows shown are a prefix of the ranking, and no entry left out is more confident than one shown. |
| ContentRender.Shape | extension/content.js:83-107 | Three shapes are accepted and everything else is skipped. A raw array and an object with a `box` array take their first four items, and the geometry is finite exactly when there are four. An object with `x` takes `x`, `y` (NaN if missing), and width and height defaulting to 0. |
| ContentRender.LabelFor | extension/content.js:123-138 | An array face gets `人脸`. Without `emotions`, a non-empty `emotion` is the label, else `人脸`. With `emotions`, the label is the first greatest positive entry as `<e> <pct>%`, or `人脸` when there is no such entry or its name is empty. |
| ContentRender.EmotionIgnoredBesideEmotions | extension/content.js:124-138 | When `emotions` is present, the `emotion` field never affects the label. |
| ContentRender.DominantPercent | extension/content.js:133-134 | The percentage in a dominant label reads back as the confidence in percent rounded to a whole number. |
| ContentRender.EmotionColour | extension/content.js:192-211 | The colour is the table entry for the lower-cased name, or `#4a6ee0`. It differs from `#4a6ee0` exactly when the lower-cased name is a table key. |
| ContentRender.ColourAsWritten | extension/content.js:210 | The lookup as written returns an inherited `Object.prototype` member exactly when the lower-cased name names one. It then returns the inherited member, modelled as `JsLookup.Inherited(name)` (for `constructor` the `Object` function), where the corrected lookup gives `#4a6ee0`. For every other name it agrees with `ContentRender.EmotionColour`. |
| ContentRender.ColourIgnoresCase | extension/content.js:210 | Names differing only in ASCII case get the same colour. |
| ContentRender.BackendLabelsColoured | extension/content.js:192-208 | Each of the backend classifier's seven labels is a key of the colour table and gets that entry, never the default. |
| ContentRender.BarLength | extension/content.js:171 | For a percentage in 0..100 and a panel at least 60 wide, the bar lies within the track. |
| ContentRender.PercentText | extension/content.js:169 | `(c*100).toFixed(1)` reads back as the confidence in percent rounded to one decimal. |
| ContentRender.Layout | extension/content.js:168-187 | Row `i`: the name is at most 10 characters and a prefix of the emotion (all of it when it is 10 or fewer). The row top is `y + 25 + 10·i`. The percentage reads back as the one-decimal value. The bar width is `percent/100·(detailWidth − 60)` of that value. The colour is the emotion's colour. Each is finite exactly when its inputs are. |
| ContentRender.RowFinite | extension/content.js:173-187 | With finite coordinates a row is exactly four commands: the name at (x+5, barY+8), the percentage at (x+dw−25, barY+8), the grey track and the coloured bar at (x+55, barY+3), height 6. |
| ContentRender.RowsBlockAt | extension/content.js:168-188 | The rows yield four commands each, and row `k`'s commands are those of row `k`'s layout. |
| ContentRender.PanelHead | extension/content.js:151-161 | With finite coordinates the panel starts with its background (detail width × 80) and its title at (x+5, y+15). |
| ContentRender.PanelRow | extension/content.js:150-188 | The panel is 2 + 4·rows commands, and the commands at `2 + 4k` are row `k`'s. |
| ContentRender.Details | extension/content.js:150-189 | A panel at a non-finite position emits nothing. |
| ContentRender.DetailsHead | extension/content.js:150-161 | At a finite position the panel has 2 + 4·(rows shown) commands. It opens with its `min(width, 200)` × 80 background and its title at (x+5, y+15). |
| ContentRender.DetailsLayout | extension/content.js:150-188 | At a finite position the panel's width is `min(width, 200)`. It is followed by one four-command row per shown entry: at most five, ranked. |
| ContentRender.FaceBody | extension/content.js:109-145 | A finite face draws its box (`#FF5252`, width 2), a band 20 high above it, its label at (x+5, y−5), then the details. A face with non-finite `x` draws only the details. |
| ContentRender.FaceAt | extension/content.js:109-145 | A face without a finite position draws nothing. At a finite geometry it draws at least three commands: first the box, then the band, then the label at (x+5, y−5). More follow exactly when there is a panel. With a panel there are 5 + 4·(rows shown) commands, and from the fourth on they are the detail panel at (x, y+height). |
| ContentRender.FaceCommands | extension/content.js:83-146 | An unrecognised face, or one without a finite position, draws nothing. A finite face draws its box first and its label at (x+5, y−5) third. Commands follow the label exactly when `emotions` has more than one entry. In that case they are the detail panel at the box's bottom edge, with 4 commands per shown row. |
| ContentRender.UnrecognisedSkipped | extension/content.js:105-106 | An unrecognised face adds nothing, and the faces after it are still drawn. |
| ContentRender.DrawFaces | extension/content.js:77-147 | A redraw is one clear of the whole canvas followed by every face's commands in order. |
| ContentOverlay.Clear | extension/content.js:59-66 | Clearing detaches the canvas, and forgets it and the faces. |
| ContentOverlay.Inject | extension/content.js:28-56 | Inject always clears first, then attaches one blank canvas of the window's size and listens for resizes. |
| ContentOverlay.Redraw | extension/content.js:77-81 | With a canvas, the picture becomes the current faces drawn at the canvas size. Without one, nothing changes. |
| ContentOverlay.Update | extension/content.js:69-74 | Without a live overlay nothing changes. Otherwise the faces are replaced and drawn. |
| ContentOverlay.Resize | extension/content.js:214-220 | A resize with a canvas and a listener resizes the canvas to the window and redraws the same faces. Otherwise the canvas is untouched. |
| ContentOverlay.Step | extension/content.js:23-74 | Every message and resize preserves consistency: one canvas at most, the one held, window-sized, showing the current faces, and no faces without it. Only an inject creates a canvas. The faces change only to none or to the ones an update delivers. |
| ContentOverlay.RunConsistent | extension/content.js:28-74 | Over any sequence of messages and resizes the overlay never stacks (at most one canvas attached) and stays consistent. |
| ContentOverlay.InjectIdempotent | extension/content.js:28-31 | Injecting twice is injecting once. |
| ContentOverlay.ClearLeavesNothing | extension/content.js:59-66 | Clearing leaves no canvas in the document and no faces. |
| ContentOverlay.UpdateBeforeInjectLost | extension/content.js:69-70 | An update before any overlay exists leaves the page exactly as it was. A later inject is the same as injecting at once: no faces and a blank canvas. |
| Text.IntToStringRoundTrip | extension/popup.js:204 | Every integer's decimal text parses back to it. |
| Text.PadWithZerosValue | extension/popup.js:483 | Zero-padding a digit string keeps it all digits and keeps its value. |
| Text.RoundHalfUp | extension/popup.js:194 | `Math.round` gives the integer within a half below and strictly less than a half above. |
| Text.ToFixedRoundTrip | extension/content.js:133 | `toFixed(d)` text parses back to the value rounded to `d` decimals. |
| Text.NegativeToFixed | extension/content.js:169 | A negative number renders as a minus sign before its magnitude's rendering. |
| Text.Prefix | extension/content.js:175 | `slice(0, n)` is a prefix of the text of length min(length, n). |

## Left out

- `measureText` is a parameter. Text width in a font is not modelled.
- `toLowerCase` is modelled on ASCII letters only. Other characters are unchanged.
- IEEE double arithmetic is modelled as exact reals. This covers overflow to infinity, rounding in `score * 100` and `toFixed`'s binary-representation quirks.
- `Object.entries` enumeration order is taken to be the order of the list given. The integer-like key reordering JavaScript applies is not modelled.
- A non-array `currentFaces`, a `null` face, or a `box` that is present but not an array: these either throw or fall through to the `x` check. An `ObjectFace` here has an array box or none.
- Chrome messaging dispatch (extension/content.js:5-20) and `findAndMonitorMedia`: message routing and logging only.
- backend/emotion_service.py is not part of this model. Face detection and classification are the `Services` functions passed to `Api.Detect`.
- Api.Detect: an exception raised while decoding a non-empty upload, or inside a predictor, is not represented, because the collaborators are total functions here. Only the empty-upload case, where `cv2.imdecode` raises on every input, gives `Raised` (HTTP 500).
- Decoding uploads, temporary files, CORS and `time.time()`: decoding and prediction are parameters, and the clock reading is part of each request.
- DOM and HTML string builders (`display*`, `clearResults`), button `disabled` flags, CSS, `showStatus` timeouts, `localStorage`, `fetch`/`FormData`, `FileReader`, `getUserMedia`, `toBlob`: these are I/O or presentation. A request's outcome is the `Reply` parameter.
- `analyzeImage` and `captureAndAnalyzeFrame` are one-shot versions of the same request-and-draw step modelled by `PopupLoop.ReplyCommands` and `PopupRender.DrawImageDetection`.
- Timer scheduling and the event loop: each tick, settlement, message and resize is a step function applied in some order. Concurrency is not otherwise modelled.
- `timeupdate` progress display: only its `formatTime` text is modelled.
- PopupRender.FormatTime: the contract is stated for non-negative positions only. Playback positions are never negative.
- PopupRender.DrawEmotionLabel: draws the icon from the corrected lookup `PopupRender.EmotionEmoji`. As written, a label naming an `Object.prototype` member, such as `constructor`, would draw that member's string form instead (see Findings and `PopupRender.EmojiAsWritten`).
- ContentRender.Layout: colours the bar with the corrected lookup `ContentRender.EmotionColour`. As written, a name such as `constructor` sets `fillStyle` to a function, which the canvas ignores, so the bar keeps the grey `#333` of the track (see Findings and `ContentRender.ColourAsWritten`). The name is cut to 10 characters with `Text.Prefix`, which counts Unicode scalar values. JavaScript's `slice(0, 10)` counts UTF-16 code units, so a name with characters outside the Basic Multilingual Plane is cut shorter, possibly inside a surrogate pair.
- Text.Prefix: counts Unicode scalar values (Dafny `char`s), not UTF-16 code units as JavaScript's `slice` does. The two agree on text within the Basic Multilingual Plane.
- Text.ToFixed: renders fixed-point digits for every value. JavaScript's `toFixed` switches to exponential notation at or above 10^21 in magnitude. The confidences rendered here are percentages, far below that bound.
- Api.AcceptedTimes: its own contract only bounds the count. The spacing and final-state properties are in `Api.ThrottleSpacing`.

## Findings

| source | as written | input that shows it | evidently intended | confidence | as-written member | corrected member |
|---|---|---|---|---|---|---|
| extension/popup.js:237 | `emojis[emotion.toLowerCase()] \|\| '😀'` looks the label up on an object literal, so inherited `Object.prototype` members are found too | a face whose emotion is `Constructor`: the lookup returns the `Object` function, and `fillText` draws its source text instead of an icon | a label not in the table gets `😀` | not executed | PopupRender.EmojiAsWritten (shown by PopupRender.InheritedEmojiName) | PopupRender.EmotionEmoji |
| extension/content.js:210 | `colors[emotion.toLowerCase()] \|\| '#4a6ee0'` has the same inherited-member lookup | an emotions entry named `constructor`: `fillStyle` is set to a function, the canvas rejects it, and the bar is drawn in the grey track colour | an unmapped label gets `#4a6ee0` | not executed | ContentRender.ColourAsWritten (shown by ContentRender.InheritedColourName) | ContentRender.EmotionColour |
| extension/popup.js:353-437 | `analyzeVideo` starts a new interval and overwrites `window.videoDetectionInterval` without clearing an interval already running | analyse a video; choose another file, whose `loadedmetadata` re-enables the analyse button (extension/popup.js:347); analyse again; stop: the first interval keeps polling | at most one video interval runs, and stopping clears it | not executed | PopupModes.AnalyzeVideoAsWritten (shown by PopupModes.AnalyzeTwiceLeaks) | PopupModes.AnalyzeVideo |

=== FILE: api.dfy ===
/** The backend's `/detect` handler: dispatch on `input_type`, the fixed
    response shapes, and the camera throttle kept in the module-level
    `last_processed_time`.

    Decoding an upload and the two predictors are collaborators the handler
    calls and are passed in as functions; the handler's only state is the
    throttle. */
module Api {
  import opened Base

  /** Minimum spacing, in seconds, between two camera frames that are analysed. */
  const ProcessInterval: real := 0.5

  /** The handler's state: `last_processed_time`, initially 0. */
  datatype Server = Server(lastProcessed: real)

  const Initial: Server := Server(0.0)

  datatype FrameResult<Face> = FrameResult(frameIndex: int, faces: seq<Face>)

  /** The JSON body: `{"error": ...}` or `{"frame_count": ..., "results": [...]}`;
      or no body of the handler's at all, when it raised and the framework
      answered HTTP 500. */
  datatype Response<Face> =
    | Error(message: string)
    | Detections(frameCount: int, results: seq<FrameResult<Face>>)
    | Raised

  /** One multipart request: the form's `input_type`, the file's bytes, and
      the wall-clock time (`time.time()`) when the handler would read it. */
  datatype Request = Request(inputType: string, contents: seq<bv8>, now: real)

  /** The handler's collaborators: image decoding (`None` for undecodable
      bytes), per-image prediction and whole-video prediction. */
  datatype Services<!Img, Face> = Services(
    decode: seq<bv8> -> Option<Img>,
    predictFrame: Img -> seq<Face>,
    predictVideo: seq<bv8> -> seq<FrameResult<Face>>)

  const InvalidImage := "Invalid image"
  const InvalidFrame := "Invalid frame"
  const InvalidInputType := "Invalid input_type. Use 'image', 'video', or 'camera'."

  /** The single-frame response for one image's faces. */
  function OneFrame<Face>(faces: seq<Face>): Response<Face> {
    Detections(1, [FrameResult(0, faces)])
  }

  /** A camera request the throttle lets through to the predictor. */
  predicate CameraAccepted<Img, Face>(svc: Services<Img, Face>, server: Server, req: Request) {
    && req.inputType == "camera"
    && req.contents != []
    && svc.decode(req.contents).Some?
    && req.now - server.lastProcessed >= ProcessInterval
  }

  /** `detect(file, input_type)`: the new throttle state and the response. */
  function Detect<Img, Face>(svc: Services<Img, Face>, server: Server, req: Request): (r: (Server, Response<Face>))
    // image and camera: `cv2.imdecode` raises on an empty buffer
    ensures req.inputType in {"image", "camera"} && req.contents == [] ==> r.1 == Raised
    // image: an undecodable upload is an error, otherwise one frame, index 0
    ensures req.inputType == "image" && req.contents != [] ==>
      r.1 == (if svc.decode(req.contents).None? then Error(InvalidImage)
              else OneFrame(svc.predictFrame(svc.decode(req.contents).value)))
    // video: the frame count is the number of results
    ensures req.inputType == "video" ==>
      r.1.Detections? && r.1.results == svc.predictVideo(req.contents) && r.1.frameCount == |r.1.results|
    // camera: an invalid frame is rejected before the throttle is consulted
    ensures req.inputType == "camera" && req.contents != [] && svc.decode(req.contents).None? ==> r.1 == Error(InvalidFrame)
    // camera: a frame too soon after the last analysed one gets one empty result
    ensures req.inputType == "camera" && req.contents != [] && svc.decode(req.contents).Some? && !CameraAccepted(svc, server, req) ==>
      r.1 == OneFrame([])
    ensures CameraAccepted(svc, server, req) ==> r.1 == OneFrame(svc.predictFrame(svc.decode(req.contents).value))
    // anything else is rejected
    ensures req.inputType !in {"image", "video", "camera"} ==> r.1 == Error(InvalidInputType)
    // only an analysed camera frame moves the throttle, and it moves it to now
    ensures r.0 == if CameraAccepted(svc, server, req) then Server(req.now) else server
  {
    if req.inputType in {"image", "camera"} && req.contents == [] then (server, Raised)
    else if req.inputType == "image" then
      match svc.decode(req.contents)
      case None => (server, Error(InvalidImage))
      case Some(img) => (server, OneFrame(svc.predictFrame(img)))
    else if req.inputType == "video" then
      var output := svc.predictVideo(req.contents);
      (server, Detections(|output|, output))
    else if req.inputType == "camera" then
      match svc.decode(req.contents)
      case None => (server, Error(InvalidFrame))
      case Some(img) =>
        if req.now - server.lastProcessed < ProcessInterval then (server, OneFrame([]))
        else (Server(req.now), OneFrame(svc.predictFrame(img)))
    else
      (server, Error(InvalidInputType))
  }

  /** The state after handling `reqs` one after another. */
  function Serve<Img, Face>(svc: Services<Img, Face>, server: Server, reqs: seq<Request>): (r: Server)
    // the throttle only moves forward, by at least the interval when it moves
    ensures r.lastProcessed == server.lastProcessed || r.lastProcessed >= server.lastProcessed + ProcessInterval
    // and only ever to the clock reading of some camera request
    ensures r == server || exists i :: 0 <= i < |reqs| && reqs[i].inputType == "camera" && r == Server(reqs[i].now)
    decreases |reqs|
  {
    if |reqs| == 0 then server
    else
      var r := Serve(svc, Detect(svc, server, reqs[0]).0, reqs[1..]);
      assert forall i :: 0 <= i < |reqs[1..]| ==> reqs[1..][i] == reqs[i + 1];
      r
  }

  /** The clock readings of the camera frames that reach the predictor. */
  function AcceptedTimes<Img, Face>(svc: Services<Img, Face>, server: Server, reqs: seq<Request>): (ts: seq<real>)
    ensures |ts| <= |reqs|
    decreases |reqs|
  {
    if |reqs| == 0 then []
    else
      var next := Detect(svc, server, reqs[0]).0;
      (if CameraAccepted(svc, server, reqs[0]) then [reqs[0].now] else []) + AcceptedTimes(svc, next, reqs[1..])
  }

  /** Whatever the clock does (it may even run backwards), any two analysed
      camera frames are at least `ProcessInterval` apart, the first one at
      least that far from the starting state, and the throttle ends at the
      last one. */
  lemma {:induction false} ThrottleSpacing<Img, Face>(svc: Services<Img, Face>, server: Server, reqs: seq<Request>)
    ensures var ts := AcceptedTimes(svc, server, reqs);
      && (|ts| > 0 ==> ts[0] - server.lastProcessed >= ProcessInterval)
      && Spaced(ts)
      && Serve(svc, server, reqs) == (if |ts| == 0 then server else Server(ts[|ts| - 1]))
    decreases |reqs|
  {
    if |reqs| > 0 {
      var next := Detect(svc, server, reqs[0]).0;
      var ts := AcceptedTimes(svc, server, reqs);
      var rest := AcceptedTimes(svc, next, reqs[1..]);
      ThrottleSpacing(svc, next, reqs[1..]);
      if CameraAccepted(svc, server, reqs[0]) {
        assert ts == [reqs[0].now] + rest;
        PrependSpaced(reqs[0].now, rest);
      } else {
        assert ts == rest;
      }
    }
  }

  /** Consecutive readings at least `ProcessInterval` apart. */
  predicate Spaced(ts: seq<real>) {
    forall i :: 0 < i < |ts| ==> ts[i] - ts[i - 1] >= ProcessInterval
  }

  /** A reading far enough before a spaced sequence keeps it spaced. */
  lemma PrependSpaced(t: real, rest: seq<real>)
    requires Spaced(rest)
    requires |rest| > 0 ==> rest[0] - t >= ProcessInterval
    ensures Spaced([t] + rest)
  {
    var ts := [t] + rest;
    forall i | 0 < i < |ts| ensures ts[i] - ts[i - 1] >= ProcessInterval {
      if i > 1 {
        assert ts[i] == rest[i - 1] && ts[i - 1] == rest[i - 2];
      }
    }
  }

  /** Image and video requests never touch the throttle. */
  lemma NonCameraKeepsThrottle<Img, Face>(svc: Services<Img, Face>, server: Server, reqs: seq<Request>)
    requires forall i :: 0 <= i < |reqs| ==> reqs[i].inputType != "camera"
    ensures Serve(svc, server, reqs) == server
    ensures AcceptedTimes(svc, server, reqs) == []
  {
    ThrottleSpacing(svc, server, reqs);
    NoCameraNoneAccepted(svc, server, reqs);
  }

  lemma {:induction false} NoCameraNoneAccepted<Img, Face>(svc: Services<Img, Face>, server: Server, reqs: seq<Request>)
    requires forall i :: 0 <= i < |reqs| ==> reqs[i].inputType != "camera"
    ensures AcceptedTimes(svc, server, reqs) == []
    decreases |reqs|
  {
    if |reqs| > 0 {
      NoCameraNoneAccepted(svc, server, reqs[1..]);
    }
  }
}

=== FILE: base.dfy ===
/** Small shared vocabulary: an optional value, used wherever the source
    reads a property that may be absent (JavaScript `undefined`, a Python
    `None`). */
module Base {

  datatype Option<+T> = None | Some(value: T) {

    /** The value, or `default` when absent. */
    function GetOr(default: T): T {
      match this
      case Some(v) => v
      case None => default
    }
  }

  function Min(a: int, b: int): int {
    if a <= b then a else b
  }

  /** `f` applied to each element of `xs`, the results concatenated in order. */
  function ConcatMap<T, U>(xs: seq<T>, f: T -> seq<U>): seq<U>
    decreases |xs|
  {
    if |xs| == 0 then [] else f(xs[0]) + ConcatMap(xs[1..], f)
  }

  lemma {:induction false} ConcatMapAppend<T, U>(a: seq<T>, b: seq<T>, f: T -> seq<U>)
    ensures ConcatMap(a + b, f) == ConcatMap(a, f) + ConcatMap(b, f)
    decreases |a|
  {
    if |a| > 0 {
      assert (a + b)[1..] == a[1..] + b;
      ConcatMapAppend(a[1..], b, f);
    } else {
      assert a + b == b;
    }
  }

  /** When every element contributes four items, element `k`'s items sit
      at `4k .. 4k + 4`. */
  lemma {:induction false} ConcatMapFours<T, U>(xs: seq<T>, f: T -> seq<U>, k: nat)
    requires forall j :: 0 <= j < |xs| ==> |f(xs[j])| == 4
    ensures |ConcatMap(xs, f)| == 4 * |xs|
    ensures k < |xs| ==> ConcatMap(xs, f)[4 * k .. 4 * k + 4] == f(xs[k])
    decreases |xs|
  {
    if |xs| > 0 {
      var head := f(xs[0]);
      var rest := ConcatMap(xs[1..], f);
      assert ConcatMap(xs, f) == head + rest;
      ConcatMapFours(xs[1..], f, if k > 0 then k - 1 else 0);
      if k == 0 {
        assert (head + rest)[..4] == head;
      } else if k < |xs| {
        assert xs[1..][k - 1] == xs[k];
        SliceOfSuffix(head, rest, 4 * (k - 1), 4 * (k - 1) + 4);
      }
    }
  }

  /** A slice of the second part of a concatenation. */
  lemma SliceOfSuffix<T>(a: seq<T>, b: seq<T>, i: nat, j: nat)
    requires i <= j <= |b|
    ensures (a + b)[|a| + i .. |a| + j] == b[i..j]
  {
  }

  /** Group `k` of four after a two-element head. */
  lemma FourAfterTwo<T>(a: seq<T>, b: seq<T>, k: nat)
    requires |a| == 2 && 4 * k + 4 <= |b|
    ensures 6 + 4 * k <= |a + b|
    ensures (a + b)[2 + 4 * k .. 6 + 4 * k] == b[4 * k .. 4 * k + 4]
  {
    SliceOfSuffix(a, b, 4 * k, 4 * k + 4);
  }

  /** An element that contributes nothing can be dropped. */
  lemma ConcatMapSkip<T, U>(a: seq<T>, x: T, b: seq<T>, f: T -> seq<U>)
    requires f(x) == []
    ensures ConcatMap(a + [x] + b, f) == ConcatMap(a + b, f)
  {
    ConcatMapAppend(a + [x], b, f);
    ConcatMapAppend(a, [x], f);
    ConcatMapAppend(a, b, f);
    assert ConcatMap([x], f) == [] by {
      assert [x][1..] == [];
    }
  }

  lemma {:induction false} ConcatMapNothing<T, U>(xs: seq<T>, f: T -> seq<U>)
    requires forall j :: 0 <= j < |xs| ==> f(xs[j]) == []
    ensures ConcatMap(xs, f) == []
    decreases |xs|
  {
    if |xs| > 0 {
      assert f(xs[0]) == [];
      ConcatMapNothing(xs[1..], f);
    }
  }

  /** The elements of `xs` satisfying `p`, in order. */
  function Filter<T>(xs: seq<T>, p: T -> bool): (r: seq<T>)
    ensures |r| <= |xs|
    ensures forall i :: 0 <= i < |r| ==> p(r[i])
    decreases |xs|
  {
    if |xs| == 0 then [] else (if p(xs[0]) then [xs[0]] else []) + Filter(xs[1..], p)
  }

  /** When the elements satisfying `p` contribute four items each and the
      others none, the `j`-th such element's items sit at `4j .. 4j + 4`. */
  lemma {:induction false} ConcatMapFiltered<T, U>(xs: seq<T>, f: T -> seq<U>, p: T -> bool, j: nat)
    requires forall i :: 0 <= i < |xs| ==> |f(xs[i])| == if p(xs[i]) then 4 else 0
    ensures |ConcatMap(xs, f)| == 4 * |Filter(xs, p)|
    ensures j < |Filter(xs, p)| ==> ConcatMap(xs, f)[4 * j .. 4 * j + 4] == f(Filter(xs, p)[j])
    decreases |xs|
  {
    if |xs| > 0 {
      var head := f(xs[0]);
      var rest := ConcatMap(xs[1..], f);
      var kept := Filter(xs[1..], p);
      assert ConcatMap(xs, f) == head + rest;
      ConcatMapFiltered(xs[1..], f, p, if j > 0 then j - 1 else 0);
      if p(xs[0]) {
        assert Filter(xs, p) == [xs[0]] + kept;
        if j == 0 {
          assert (head + rest)[..4] == head;
        } else if j < |Filter(xs, p)| {
          SliceOfSuffix(head, rest, 4 * (j - 1), 4 * (j - 1) + 4);
        }
      } else {
        assert Filter(xs, p) == kept;
        assert head + rest == rest;
        ConcatMapFiltered(xs[1..], f, p, j);
      }
    }
  }

  lemma ConcatMapSingle<T, U>(x: T, f: T -> seq<U>)
    ensures ConcatMap([x], f) == f(x)
  {
    assert [x][1..] == [];
  }
}

=== FILE: canvas.dfy ===
/** The drawing surface as the renderers see it: a list of 2D-context calls
    rather than pixels, and JavaScript numbers that may be non-finite.

    An HTML canvas silently ignores `strokeRect`, `fillRect` and `fillText`
    when any numeric argument is NaN or infinite; the builders below that take
    `Num` arguments therefore emit either one command or none. */
module Canvas {

  datatype Rect = Rect(x: real, y: real, w: real, h: real)

  datatype Cmd =
    | ClearRect(area: Rect)
    | StrokeRect(area: Rect, stroke: string, lineWidth: real)
    | FillRect(area: Rect, fill: string)
    | FillText(text: string, x: real, y: real, fill: string, font: string)

  /** A JavaScript number: finite, or NaN (what arithmetic on `undefined` gives). */
  datatype Num = Fin(v: real) | NaN

  function Add(a: Num, b: Num): (r: Num)
    ensures r.Fin? <==> a.Fin? && b.Fin?
    ensures r.Fin? ==> r.v == a.v + b.v
  {
    if a.Fin? && b.Fin? then Fin(a.v + b.v) else NaN
  }

  /** `a + c` for a constant `c`. */
  function Shift(a: Num, c: real): (r: Num)
    ensures r.Fin? <==> a.Fin?
    ensures r.Fin? ==> r.v == a.v + c
  {
    Add(a, Fin(c))
  }

  /** `c * a` for a constant `c`. */
  function Scale(c: real, a: Num): (r: Num)
    ensures r.Fin? <==> a.Fin?
    ensures r.Fin? ==> r.v == c * a.v
  {
    if a.Fin? then Fin(c * a.v) else NaN
  }

  /** `Math.min(a, c)`: NaN when `a` is NaN. */
  function MinWith(a: Num, c: real): (r: Num)
    ensures r.Fin? <==> a.Fin?
    ensures r.Fin? ==> r.v <= c && r.v <= a.v && (r.v == c || r.v == a.v)
  {
    if a.NaN? then NaN else if a.v <= c then a else Fin(c)
  }

  /** `items[i]` of a numeric array: `undefined`, hence NaN in arithmetic, past the end. */
  function Item(items: seq<real>, i: nat): (r: Num)
    ensures r.Fin? <==> i < |items|
    ensures i < |items| ==> r == Fin(items[i])
  {
    if i < |items| then Fin(items[i]) else NaN
  }

  function StrokeRectN(x: Num, y: Num, w: Num, h: Num, stroke: string, lineWidth: real): (cmds: seq<Cmd>)
    ensures |cmds| <= 1
    ensures |cmds| == 1 <==> x.Fin? && y.Fin? && w.Fin? && h.Fin?
    ensures |cmds| == 1 ==> cmds[0] == StrokeRect(Rect(x.v, y.v, w.v, h.v), stroke, lineWidth)
  {
    if x.Fin? && y.Fin? && w.Fin? && h.Fin? then [StrokeRect(Rect(x.v, y.v, w.v, h.v), stroke, lineWidth)] else []
  }

  function FillRectN(x: Num, y: Num, w: Num, h: Num, fill: string): (cmds: seq<Cmd>)
    ensures |cmds| <= 1
    ensures |cmds| == 1 <==> x.Fin? && y.Fin? && w.Fin? && h.Fin?
    ensures |cmds| == 1 ==> cmds[0] == FillRect(Rect(x.v, y.v, w.v, h.v), fill)
  {
    if x.Fin? && y.Fin? && w.Fin? && h.Fin? then [FillRect(Rect(x.v, y.v, w.v, h.v), fill)] else []
  }

  function FillTextN(text: string, x: Num, y: Num, fill: string, font: string): (cmds: seq<Cmd>)
    ensures |cmds| <= 1
    ensures |cmds| == 1 <==> x.Fin? && y.Fin?
    ensures |cmds| == 1 ==> cmds[0] == FillText(text, x.v, y.v, fill, font)
  {
    if x.Fin? && y.Fin? then [FillText(text, x.v, y.v, fill, font)] else []
  }

  /** The pixel size a canvas takes when its `width`/`height` attribute is set
      to a rendered (non-negative, fractional) CSS size: the integer part. */
  function CanvasSize(rendered: real): (px: nat)
    requires rendered >= 0.0
    ensures (px as real) <= rendered < (px as real) + 1.0
  {
    rendered.Floor
  }

  /** The command that wipes a whole `width` by `height` surface. */
  function ClearAll(width: nat, height: nat): Cmd {
    ClearRect(Rect(0.0, 0.0, width as real, height as real))
  }
}

=== FILE: content_overlay.dfy ===
/** The in-page overlay's lifecycle: the page script keeps one optional
    full-window canvas (with its 2D context), the faces last received, and a
    `resize` listener; injecting, clearing, updating and resizing are steps
    on that state. The picture on the canvas is the command list drawn onto
    it since it was created. */
module ContentOverlay {
  import opened Base
  import opened Canvas
  import opened ContentRender

  /** The overlay canvas: its pixel size and what has been drawn on it. */
  datatype Layer = Layer(width: nat, height: nat, picture: seq<Cmd>)

  datatype Page = Page(
    layer: Option<Layer>,         // `overlayCanvas` and `ctx`, set and cleared together
    faces: seq<ContentFace>,      // `currentFaces`
    listening: bool,              // `resizeCanvas` is registered for `resize`
    attached: nat,                // overlay canvases present in the document
    windowW: nat,
    windowH: nat)

  /** The page as the script finds it. */
  function Start(windowW: nat, windowH: nat): Page {
    Page(None, [], false, 0, windowW, windowH)
  }

  /** `clearCanvasOverlay`: detach the canvas if any, forget it and the faces. */
  function Clear(p: Page): (r: Page)
    ensures r.layer.None? && r.faces == []
    ensures r.attached == if p.layer.Some? && p.attached > 0 then p.attached - 1 else p.attached
    ensures r.listening == p.listening && r.windowW == p.windowW && r.windowH == p.windowH
  {
    var attached := if p.layer.Some? && p.attached > 0 then p.attached - 1 else p.attached;
    p.(layer := None, faces := [], attached := attached)
  }

  /** `injectCanvasOverlay`: clear first, then attach a fresh blank canvas the
      size of the window and listen for resizes (registering the same
      listener twice keeps one). */
  function Inject(p: Page): (r: Page)
    ensures r.layer == Some(Layer(p.windowW, p.windowH, []))
    ensures r.faces == [] && r.listening
    ensures r.attached == Clear(p).attached + 1
  {
    var q := Clear(p);
    q.(layer := Some(Layer(q.windowW, q.windowH, [])), attached := q.attached + 1, listening := true)
  }

  /** `drawFaces`: with a context, the canvas shows the current faces. */
  function Redraw(p: Page): (r: Page)
    ensures p.layer.None? ==> r == p
    ensures p.layer.Some? ==> r.layer.Some? && r.layer.value.picture == DrawFaces(p.faces, p.layer.value.width, p.layer.value.height)
  {
    match p.layer
    case None => p
    case Some(l) => p.(layer := Some(l.(picture := DrawFaces(p.faces, l.width, l.height))))
  }

  /** `updateFaceOverlay(data)`: ignored without an overlay; otherwise the
      faces are replaced and drawn. */
  function Update(p: Page, data: seq<ContentFace>): (r: Page)
    ensures p.layer.None? ==> r == p
    ensures p.layer.Some? ==> r.faces == data && r.layer.Some?
    ensures p.layer.Some? ==> r.layer.value.picture == DrawFaces(data, p.layer.value.width, p.layer.value.height)
  {
    if p.layer.None? then p else Redraw(p.(faces := data))
  }

  /** The window is resized to `w` by `h`; when the listener is registered,
      `resizeCanvas` resizes an existing overlay to match and redraws it. */
  function Resize(p: Page, w: nat, h: nat): (r: Page)
    ensures r.windowW == w && r.windowH == h && r.faces == p.faces
    ensures p.layer.Some? && p.listening ==> r.layer == Some(Layer(w, h, DrawFaces(p.faces, w, h)))
    ensures p.layer.None? || !p.listening ==> r.layer == p.layer
  {
    var q := p.(windowW := w, windowH := h);
    if p.listening && p.layer.Some? then Redraw(q.(layer := Some(Layer(w, h, p.layer.value.picture))))
    else q
  }

  datatype Event = InjectOverlay | ClearOverlay | UpdateFaces(data: seq<ContentFace>) | WindowResize(w: nat, h: nat)

  /** One message or resize. A consistent page stays consistent; only an
      inject creates a canvas; the faces change only to the ones a message
      delivers or to none. */
  function Step(p: Page, e: Event): (r: Page)
    ensures Consistent(p) ==> Consistent(r)
    ensures p.layer.None? && r.layer.Some? ==> e.InjectOverlay?
    ensures r.faces == p.faces || r.faces == [] || (e.UpdateFaces? && r.faces == e.data)
  {
    match e
    case InjectOverlay => Inject(p)
    case ClearOverlay => Clear(p)
    case UpdateFaces(data) => Update(p, data)
    case WindowResize(w, h) => Resize(p, w, h)
  }

  function Run(p: Page, es: seq<Event>): Page
    decreases |es|
  {
    if |es| == 0 then p else Run(Step(p, es[0]), es[1..])
  }

  /** At most one overlay canvas is in the document, and it is the one the
      script holds; it covers the window and shows the current faces (or is
      still blank from its creation, with no faces yet); without it there
      are no faces. */
  predicate Consistent(p: Page) {
    && p.attached == (if p.layer.Some? then 1 else 0)
    && (p.layer.None? ==> p.faces == [])
    && (p.layer.Some? ==>
          var l := p.layer.value;
          && p.listening
          && l.width == p.windowW && l.height == p.windowH
          && ((l.picture == [] && p.faces == []) || l.picture == DrawFaces(p.faces, l.width, l.height)))
  }

  lemma StartConsistent(w: nat, h: nat)
    ensures Consistent(Start(w, h))
  {
  }

  /** Whatever messages and resizes arrive, the overlay never stacks and
      always shows the faces last received. */
  lemma {:induction false} RunConsistent(p: Page, es: seq<Event>)
    requires Consistent(p)
    ensures Consistent(Run(p, es))
    ensures Run(p, es).attached <= 1
    decreases |es|
  {
    if |es| > 0 {
      RunConsistent(Step(p, es[0]), es[1..]);
    }
  }

  /** Injecting twice is injecting once. */
  lemma InjectIdempotent(p: Page)
    requires Consistent(p)
    ensures Inject(Inject(p)) == Inject(p)
  {
  }

  /** Clearing leaves no canvas in the document and no faces. */
  lemma ClearLeavesNothing(p: Page)
    requires Consistent(p)
    ensures Consistent(Clear(p)) && Clear(p).attached == 0 && Clear(p).faces == []
  {
  }

  /** Faces sent before any overlay exists are dropped: a later inject shows
      nothing. */
  lemma UpdateBeforeInjectLost(w: nat, h: nat, data: seq<ContentFace>)
    ensures Update(Start(w, h), data) == Start(w, h)
    ensures Inject(Update(Start(w, h), data)) == Inject(Start(w, h))
    ensures Inject(Update(Start(w, h), data)).faces == []
    ensures Inject(Update(Start(w, h), data)).layer.value.picture == []
  {
  }
}

=== FILE: content_render.dfy ===
/** The in-page overlay renderer: each face, in any of three accepted
    shapes, becomes a box, a label band with the dominant emotion, and, when
    the face carries several emotion scores, a detail panel with up to five
    ranked bars. */
module ContentRender {
  import opened Base
  import opened Text
  import opened Canvas
  import JsLookup
  import Emotions
  import opened Ranking

  /** A face as the page receives it: a bare `[x, y, width, height]` array,
      or an object that may carry a `box` array, loose coordinates, an
      `emotion` name and an `emotions` object (as its entries). */
  datatype ContentFace =
    | ArrayFace(items: seq<real>)
    | ObjectFace(box: Option<seq<real>>, x: Option<real>, y: Option<real>,
                 width: Option<real>, height: Option<real>,
                 emotion: Option<string>, emotions: Option<Entries>)

  /** The four numbers a face is drawn at. */
  datatype Geometry = Geometry(x: Num, y: Num, w: Num, h: Num)

  predicate Finite(g: Geometry) {
    g.x.Fin? && g.y.Fin? && g.w.Fin? && g.h.Fin?
  }

  const BoxColour := "#FF5252"
  const BoxLineWidth := 2.0
  const BandHeight := 20.0
  const BandColour := "rgba(255, 82, 82, 0.8)"
  const TextColour := "white"
  const LabelFont := "12px Arial"
  const FaceLabel := "人脸"

  /** The geometry of the three accepted shapes; `None` for anything else. */
  function Shape(f: ContentFace): (g: Option<Geometry>)
    ensures g.None? <==> f.ObjectFace? && f.box.None? && f.x.None?
    ensures f.ArrayFace? ==> (Finite(g.value) <==> |f.items| >= 4)
    ensures f.ArrayFace? && |f.items| >= 4 ==>
      g.value == Geometry(Fin(f.items[0]), Fin(f.items[1]), Fin(f.items[2]), Fin(f.items[3]))
    ensures f.ObjectFace? && f.box.Some? ==> (Finite(g.value) <==> |f.box.value| >= 4)
    ensures f.ObjectFace? && f.box.Some? && |f.box.value| >= 4 ==>
      var b := f.box.value; g.value == Geometry(Fin(b[0]), Fin(b[1]), Fin(b[2]), Fin(b[3]))
    ensures f.ObjectFace? && f.box.None? && f.x.Some? ==>
      && g.value.x == Fin(f.x.value)
      && (g.value.y.Fin? <==> f.y.Some?)
      && g.value.w == Fin(f.width.GetOr(0.0)) && g.value.h == Fin(f.height.GetOr(0.0))
  {
    match f
    case ArrayFace(items) => Some(Corners(items))
    case ObjectFace(box, x, y, width, height, _, _) =>
      if box.Some? then Some(Corners(box.value))
      else if x.Some? then
        Some(Geometry(Fin(x.value), if y.Some? then Fin(y.value) else NaN,
                      Fin(width.GetOr(0.0)), Fin(height.GetOr(0.0))))
      else None
  }

  /** `[a[0], a[1], a[2], a[3]]`, NaN past the end. */
  function Corners(items: seq<real>): Geometry {
    Geometry(Item(items, 0), Item(items, 1), Item(items, 2), Item(items, 3))
  }

  // ---------------------------------------------------------------------
  // The label.

  /** `${e} ${(c * 100).toFixed(0)}%`. */
  function DominantText(e: string, c: real): string {
    e + " " + ToFixed(c * 100.0, 0) + "%"
  }

  /** Every first-greatest entry is the one the fold returns. */
  lemma DominantIsAnyFirstMax(es: Entries)
    ensures forall i :: FirstMaxAt(es, i) ==> Dominant(es) == Pick(es[i].0, es[i].1)
  {
    forall i | FirstMaxAt(es, i) ensures Dominant(es) == Pick(es[i].0, es[i].1) {
      DominantIsFirstMax(es, i);
    }
  }

  /** The label text. An `emotions` object, when present, decides alone: its
      first entry of greatest positive confidence, or the default label when
      there is none (or its name is empty); `emotion` is read only when
      `emotions` is absent. */
  function LabelFor(f: ContentFace): (t: string)
    ensures f.ArrayFace? ==> t == FaceLabel
    ensures f.ObjectFace? && f.emotions.None? && f.emotion.Some? && f.emotion.value != "" ==> t == f.emotion.value
    ensures f.ObjectFace? && f.emotions.None? && (f.emotion.None? || f.emotion.value == "") ==> t == FaceLabel
    ensures f.ObjectFace? && f.emotions.Some? ==>
      var es := f.emotions.value;
      && ((forall j :: 0 <= j < |es| ==> es[j].1 <= 0.0) ==> t == FaceLabel)
      && (forall i :: FirstMaxAt(es, i) ==> t == if es[i].0 == "" then FaceLabel else DominantText(es[i].0, es[i].1))
  {
    match f
    case ArrayFace(_) => FaceLabel
    case ObjectFace(_, _, _, _, _, emotion, emotions) =>
      if emotions.Some? then
        var es := emotions.value;
        DominantIsAnyFirstMax(es);
        if forall j :: 0 <= j < |es| ==> es[j].1 <= 0.0 then DominantNone(es); FaceLabel
        else
          var d := Dominant(es);
          if d.emotion != "" then DominantText(d.emotion, d.confidence) else FaceLabel
      else if emotion.Some? && emotion.value != "" then emotion.value
      else FaceLabel
  }

  /** With an `emotions` object present, the `emotion` field is never
      consulted, even when no emotion wins. */
  lemma EmotionIgnoredBesideEmotions(f: ContentFace, e: Option<string>)
    requires f.ObjectFace? && f.emotions.Some?
    ensures LabelFor(f.(emotion := e)) == LabelFor(f)
  {
  }

  /** The percentage in a dominant label reads back as the confidence
      rounded to a whole percent. */
  lemma DominantPercent(e: string, c: real)
    ensures var t := DominantText(e, c);
      var p := ToFixed(c * 100.0, 0);
      t == e + " " + p + "%" && ParseDecimal(p) == Some(FixedValue(c * 100.0, 0))
  {
    ToFixedRoundTrip(c * 100.0, 0);
  }

  // ---------------------------------------------------------------------
  // Colours.

  /** The colour table, keyed by lower-case label; the literal's repeated
      keys carry the same colours, so each key appears once here. */
  const Colours: map<string, string> := map[
    "anger" := "#ff5252", "angry" := "#ff5252",
    "disgust" := "#8bc34a", "disgusted" := "#8bc34a",
    "fear" := "#ff9800", "fearful" := "#ff9800",
    "happy" := "#4caf50",
    "sad" := "#2196f3",
    "surprise" := "#9c27b0", "surprised" := "#9c27b0",
    "neutral" := "#757575"
  ]
  const DefaultColour := "#4a6ee0"

  /** A bar's colour: the table entry for the lower-cased label, or the
      default; only the table's own entries are consulted. */
  function EmotionColour(name: string): (c: string)
    ensures c == DefaultColour || c in Colours.Values
    ensures ToLower(name) in Colours <==> c != DefaultColour
    ensures ToLower(name) in Colours ==> c == Colours[ToLower(name)]
  {
    JsLookup.OrDefault(Colours, ToLower(name), DefaultColour)
  }

  /** No colour key is the name of an `Object.prototype` member. */
  lemma ColourKeysOwn()
    ensures Colours.Keys !! JsLookup.PrototypeMembers
  {
  }

  /** The same lookup as written, where a label naming an `Object.prototype`
      member yields that member instead of a colour. */
  function ColourAsWritten(name: string): (r: JsLookup.Found)
    ensures ToLower(name) !in JsLookup.PrototypeMembers ==> r == JsLookup.Own(EmotionColour(name))
    ensures r.Inherited? <==> ToLower(name) in JsLookup.PrototypeMembers
    ensures r.Inherited? ==> r.member == ToLower(name) && EmotionColour(name) == DefaultColour
  {
    ColourKeysOwn();
    JsLookup.OrAsWritten(Colours, ToLower(name), DefaultColour)
  }

  /** A label that lower-cases to `constructor` sets the fill style to a
      function, which the canvas rejects, so the bar keeps the previous fill
      (the grey track) instead of any colour from the table. */
  lemma InheritedColourName()
    ensures ColourAsWritten("Constructor") == JsLookup.Inherited("constructor")
    ensures EmotionColour("Constructor") == DefaultColour
  {
    assert ToLower("Constructor") == "constructor";
  }

  lemma ColourIgnoresCase(a: string, b: string)
    requires ToLower(a) == ToLower(b)
    ensures EmotionColour(a) == EmotionColour(b)
  {
  }

  /** Every label the backend classifier produces has its own colour. */
  lemma BackendLabelsColoured(k: string)
    requires k in Emotions.Labels
    ensures k in Colours && EmotionColour(k) == Colours[k]
    ensures EmotionColour(k) != DefaultColour
  {
    assert ToLower(k) == k;
  }

  // ---------------------------------------------------------------------
  // The detail panel.

  const PanelHeight := 80.0
  const PanelMaxWidth := 200.0
  const PanelColour := "rgba(0, 0, 0, 0.7)"
  const PanelTitle := "情绪分布:"
  const PanelFont := "10px Arial"
  const TrackColour := "#333"

  /** What one ranked row shows and where. */
  datatype RowLayout = RowLayout(name: string, percent: string, barY: Num, barWidth: Num, colour: string)

  /** `(percent / 100) * (detailWidth - 60)`: the share of the track the bar fills. */
  function BarLength(percent: real, dw: real): (w: real)
    ensures 0.0 <= percent <= 100.0 && dw >= 60.0 ==> 0.0 <= w <= dw - 60.0
  {
    percent / 100.0 * (dw - 60.0)
  }

  /** `(confidence * 100).toFixed(1)`: the row's percentage, which reads
      back as the confidence in percent rounded to one decimal. */
  function PercentText(c: real): (s: string)
    ensures ParseDecimal(s) == Some(FixedValue(c * 100.0, 1))
  {
    ToFixedRoundTrip(c * 100.0, 1);
    ToFixed(c * 100.0, 1)
  }

  /** Row `i` of a panel whose top is `y` and width is `dw`. */
  function Layout(y: Num, dw: Num, e: (string, real), i: nat): (l: RowLayout)
    ensures |l.name| <= 10 && l.name <= e.0
    ensures |e.0| <= 10 ==> l.name == e.0
    ensures l.barY.Fin? <==> y.Fin?
    ensures l.barY.Fin? ==> l.barY.v == y.v + 25.0 + 10.0 * (i as real)
    ensures ParseDecimal(l.percent) == Some(FixedValue(e.1 * 100.0, 1))
    ensures l.barWidth.Fin? <==> dw.Fin?
    ensures l.barWidth.Fin? ==> l.barWidth.v == BarLength(FixedValue(e.1 * 100.0, 1), dw.v)
    ensures l.colour == EmotionColour(e.0)
  {
    var percent := PercentText(e.1);
    var shown := ParseDecimal(percent);
    var barWidth := if dw.Fin? && shown.Some? then Fin(BarLength(shown.value, dw.v)) else NaN;
    RowLayout(Prefix(e.0, 10), percent, Shift(y, 25.0 + 10.0 * (i as real)), barWidth, EmotionColour(e.0))
  }

  /** A row's name, percentage, grey track and coloured bar. */
  function RowCommands(x: Num, dw: Num, l: RowLayout): seq<Cmd> {
    FillTextN(l.name, Shift(x, 5.0), Shift(l.barY, 8.0), TextColour, PanelFont) +
    FillTextN(l.percent + "%", Shift(Add(x, dw), -25.0), Shift(l.barY, 8.0), TextColour, PanelFont) +
    FillRectN(Shift(x, 55.0), Shift(l.barY, 3.0), Shift(dw, -60.0), Fin(6.0), TrackColour) +
    FillRectN(Shift(x, 55.0), Shift(l.barY, 3.0), l.barWidth, Fin(6.0), l.colour)
  }

  /** With finite coordinates a row is exactly its four commands: the name
      and the percentage 8 below the row's top, the track and the bar 3
      below it, both starting 55 into the panel. */
  lemma RowFinite(x: Num, dw: Num, l: RowLayout)
    requires x.Fin? && dw.Fin? && l.barY.Fin? && l.barWidth.Fin?
    ensures RowCommands(x, dw, l) == [
        FillText(l.name, x.v + 5.0, l.barY.v + 8.0, TextColour, PanelFont),
        FillText(l.percent + "%", x.v + dw.v - 25.0, l.barY.v + 8.0, TextColour, PanelFont),
        FillRect(Rect(x.v + 55.0, l.barY.v + 3.0, dw.v - 60.0, 6.0), TrackColour),
        FillRect(Rect(x.v + 55.0, l.barY.v + 3.0, l.barWidth.v, 6.0), l.colour)]
  {
  }

  /** The layouts of `rows`, numbered from 0. */
  function Layouts(y: Num, dw: Num, rows: Entries): (ls: seq<RowLayout>)
    ensures |ls| == |rows|
    ensures forall k :: 0 <= k < |ls| ==> ls[k] == Layout(y, dw, rows[k], k)
  {
    seq(|rows|, k requires 0 <= k < |rows| => Layout(y, dw, rows[k], k))
  }

  /** The rows' commands, each row at its own index. */
  function RowsBlock(x: Num, y: Num, dw: Num, rows: Entries): seq<Cmd> {
    ConcatMap(Layouts(y, dw, rows), l => RowCommands(x, dw, l))
  }

  /** With finite coordinates, four commands per row, row `k` at `4k`. */
  lemma RowsBlockAt(x: Num, y: Num, dw: Num, rows: Entries, k: nat)
    requires x.Fin? && y.Fin? && dw.Fin?
    ensures |RowsBlock(x, y, dw, rows)| == 4 * |rows|
    ensures k < |rows| ==> RowsBlock(x, y, dw, rows)[4 * k .. 4 * k + 4] == RowCommands(x, dw, Layout(y, dw, rows[k], k))
  {
    var ls := Layouts(y, dw, rows);
    var row := (l: RowLayout) => RowCommands(x, dw, l);
    forall j | 0 <= j < |ls| ensures |row(ls[j])| == 4 {
      RowFinite(x, dw, ls[j]);
    }
    ConcatMapFours(ls, row, k);
  }

  /** Without a finite `x` or `y` no row command survives. */
  lemma RowsBlockVanishes(x: Num, y: Num, dw: Num, rows: Entries)
    requires !x.Fin? || !y.Fin?
    ensures RowsBlock(x, y, dw, rows) == []
  {
    var ls := Layouts(y, dw, rows);
    var row := (l: RowLayout) => RowCommands(x, dw, l);
    forall j | 0 <= j < |ls| ensures row(ls[j]) == [] {
      assert ls[j].barY.Fin? <==> y.Fin?;
    }
    ConcatMapNothing(ls, row);
  }

  /** The panel's background and title. */
  function PanelHead(x: Num, y: Num, dw: Num): (cmds: seq<Cmd>)
    ensures x.Fin? && y.Fin? && dw.Fin? ==> cmds == [
      FillRect(Rect(x.v, y.v, dw.v, PanelHeight), PanelColour),
      FillText(PanelTitle, x.v + 5.0, y.v + 15.0, TextColour, PanelFont)]
  {
    FillRectN(x, y, dw, Fin(PanelHeight), PanelColour) +
    FillTextN(PanelTitle, Shift(x, 5.0), Shift(y, 15.0), TextColour, PanelFont)
  }

  /** A panel `dw` wide at (`x`, `y`): its background, its title, and the
      given rows in order. */
  function Panel(x: Num, y: Num, dw: Num, rows: Entries): seq<Cmd> {
    PanelHead(x, y, dw) + RowsBlock(x, y, dw, rows)
  }

  /** With finite coordinates, the panel is its background and title
      followed by four commands per row. */
  lemma PanelHeadFirst(x: Num, y: Num, dw: Num, rows: Entries)
    requires x.Fin? && y.Fin? && dw.Fin?
    ensures |Panel(x, y, dw, rows)| == 2 + 4 * |rows|
    ensures Panel(x, y, dw, rows)[..2] == PanelHead(x, y, dw)
  {
    var head := PanelHead(x, y, dw);
    var block := RowsBlock(x, y, dw, rows);
    RowsBlockAt(x, y, dw, rows, 0);
    assert (head + block)[..2] == head;
  }

  /** With finite coordinates, row `k` of the panel is laid out at
      `y + 25 + 10k`, after the background and title. */
  lemma PanelRow(x: Num, y: Num, dw: Num, rows: Entries, k: nat)
    requires x.Fin? && y.Fin? && dw.Fin?
    requires k < |rows|
    ensures 6 + 4 * k <= |Panel(x, y, dw, rows)|
    ensures Panel(x, y, dw, rows)[2 + 4 * k .. 6 + 4 * k] == RowCommands(x, dw, Layout(y, dw, rows[k], k))
  {
    var head := PanelHead(x, y, dw);
    var block := RowsBlock(x, y, dw, rows);
    RowsBlockAt(x, y, dw, rows, k);
    FourAfterTwo(head, block, k);
  }

  /** `drawEmotionDetails(x, y, width, emotions)`: a panel `min(width, 200)`
      wide showing the top rows; nothing at all without a finite position. */
  function Details(x: Num, y: Num, width: Num, es: Entries): (cmds: seq<Cmd>)
    ensures !x.Fin? || !y.Fin? ==> cmds == []
  {
    var dw := MinWith(width, PanelMaxWidth);
    if !x.Fin? || !y.Fin? then RowsBlockVanishes(x, y, dw, TopRows(es)); Panel(x, y, dw, TopRows(es))
    else Panel(x, y, dw, TopRows(es))
  }

  /** With finite coordinates, the detail panel is `min(width, 200)` wide
      and 80 high and titled, followed by four commands per ranked row. */
  lemma DetailsHead(x: Num, y: Num, width: Num, es: Entries)
    requires x.Fin? && y.Fin? && width.Fin?
    ensures var cmds := Details(x, y, width, es);
      var dw := if width.v <= PanelMaxWidth then width.v else PanelMaxWidth;
      && |cmds| == 2 + 4 * |TopRows(es)|
      && cmds[0] == FillRect(Rect(x.v, y.v, dw, PanelHeight), PanelColour)
      && cmds[1] == FillText(PanelTitle, x.v + 5.0, y.v + 15.0, TextColour, PanelFont)
  {
    var dw := MinWith(width, PanelMaxWidth);
    PanelHeadFirst(x, y, dw, TopRows(es));
    var cmds := Panel(x, y, dw, TopRows(es));
    assert cmds[0] == cmds[..2][0] && cmds[1] == cmds[..2][1];
  }

  /** With finite coordinates, the detail panel shows row `k` of the
      ranking at `y + 25 + 10k`, after its background and title. */
  lemma DetailsLayout(x: Num, y: Num, width: Num, es: Entries, k: nat)
    requires x.Fin? && y.Fin? && width.Fin?
    requires k < |TopRows(es)|
    ensures var cmds := Details(x, y, width, es);
      var dw := if width.v <= PanelMaxWidth then width.v else PanelMaxWidth;
      && |cmds| == 2 + 4 * |TopRows(es)|
      && cmds[0] == FillRect(Rect(x.v, y.v, dw, PanelHeight), PanelColour)
      && cmds[1] == FillText(PanelTitle, x.v + 5.0, y.v + 15.0, TextColour, PanelFont)
      && cmds[2 + 4 * k .. 6 + 4 * k] == RowCommands(x, Fin(dw), Layout(y, Fin(dw), TopRows(es)[k], k))
  {
    var dw := MinWith(width, PanelMaxWidth);
    DetailsHead(x, y, width, es);
    PanelRow(x, y, dw, TopRows(es), k);
  }

  // ---------------------------------------------------------------------
  // Faces.

  /** The panel is drawn only for an `emotions` object with more than one key. */
  predicate HasDetails(f: ContentFace) {
    f.ObjectFace? && f.emotions.Some? && |f.emotions.value| > 1
  }

  /** A recognised face at `g`: its box, a 20-high band sitting on the
      box's top edge, the label inset by 5, then `details`. */
  function FaceBody(g: Geometry, text: string, details: seq<Cmd>): (cmds: seq<Cmd>)
    ensures Finite(g) ==>
      && |cmds| == 3 + |details|
      && cmds[0] == StrokeRect(Rect(g.x.v, g.y.v, g.w.v, g.h.v), BoxColour, BoxLineWidth)
      && cmds[1] == FillRect(Rect(g.x.v, g.y.v - BandHeight, g.w.v, BandHeight), BandColour)
      && cmds[2] == FillText(text, g.x.v + 5.0, g.y.v - 5.0, TextColour, LabelFont)
      && cmds[3..] == details
    ensures !g.x.Fin? ==> cmds == details
  {
    StrokeRectN(g.x, g.y, g.w, g.h, BoxColour, BoxLineWidth) +
    FillRectN(g.x, Shift(g.y, -BandHeight), g.w, Fin(BandHeight), BandColour) +
    FillTextN(text, Shift(g.x, 5.0), Shift(g.y, -5.0), TextColour, LabelFont) +
    details
  }

  /** One face: nothing for an unrecognised shape or one without a finite
      position; otherwise its box and label, and the detail panel below the
      box exactly when the face has several emotion scores. */
  function FaceCommands(f: ContentFace): (cmds: seq<Cmd>)
    ensures Shape(f).None? ==> cmds == []
    ensures Shape(f).Some? && !(Shape(f).value.x.Fin? && Shape(f).value.y.Fin?) ==> cmds == []
    ensures Shape(f).Some? && Finite(Shape(f).value) ==>
      var g := Shape(f).value;
      && |cmds| >= 3
      && cmds[0] == StrokeRect(Rect(g.x.v, g.y.v, g.w.v, g.h.v), BoxColour, BoxLineWidth)
      && cmds[2] == FillText(LabelFor(f), g.x.v + 5.0, g.y.v - 5.0, TextColour, LabelFont)
      && (|cmds| > 3 <==> HasDetails(f))
    ensures Shape(f).Some? && Finite(Shape(f).value) && HasDetails(f) ==>
      var g := Shape(f).value;
      var es := f.emotions.value;
      && |cmds| == 5 + 4 * |TopRows(es)|
      && cmds[3..] == Details(g.x, Fin(g.y.v + g.h.v), g.w, es)
  {
    match Shape(f)
    case None => []
    case Some(g) => FaceAt(g, LabelFor(f), if HasDetails(f) then Some(f.emotions.value) else None)
  }

  /** A face at `g` labelled `text`, with the detail panel for `panel`'s
      scores when there is one: nothing without a finite position; at a
      finite geometry the box, band and label, then the panel below the box. */
  function FaceAt(g: Geometry, text: string, panel: Option<Entries>): (cmds: seq<Cmd>)
    ensures !(g.x.Fin? && g.y.Fin?) ==> cmds == []
    ensures Finite(g) ==>
      && |cmds| >= 3
      && cmds[0] == StrokeRect(Rect(g.x.v, g.y.v, g.w.v, g.h.v), BoxColour, BoxLineWidth)
      && cmds[2] == FillText(text, g.x.v + 5.0, g.y.v - 5.0, TextColour, LabelFont)
      && (|cmds| > 3 <==> panel.Some?)
    ensures Finite(g) && panel.Some? ==>
      && |cmds| == 5 + 4 * |TopRows(panel.value)|
      && cmds[3..] == Details(g.x, Fin(g.y.v + g.h.v), g.w, panel.value)
  {
    match panel
    case None =>
      FaceAlone(g, text);
      FaceBody(g, text, [])
    case Some(es) =>
      FaceWithPanel(g, text, es);
      FaceBody(g, text, Details(g.x, Add(g.y, g.h), g.w, es))
  }

  /** A face without a panel: three commands at a finite geometry, none
      without a finite position. */
  lemma FaceAlone(g: Geometry, text: string)
    ensures Finite(g) ==> |FaceBody(g, text, [])| == 3
    ensures !(g.x.Fin? && g.y.Fin?) ==> FaceBody(g, text, []) == []
  {
  }

  /** A face with a panel below its box: the panel follows the box, band
      and label at a finite geometry; nothing is drawn without a finite
      position. */
  lemma FaceWithPanel(g: Geometry, text: string, es: Entries)
    ensures var cmds := FaceBody(g, text, Details(g.x, Add(g.y, g.h), g.w, es));
      && (Finite(g) ==>
        && |cmds| == 5 + 4 * |TopRows(es)|
        && cmds[3..] == Details(g.x, Fin(g.y.v + g.h.v), g.w, es))
      && (!(g.x.Fin? && g.y.Fin?) ==> cmds == [])
  {
    if Finite(g) {
      PanelBelowBox(g, text, es);
    } else if !(g.x.Fin? && g.y.Fin?) {
      assert Details(g.x, Add(g.y, g.h), g.w, es) == [];
      FaceAlone(g, text);
    }
  }

  /** At a finite geometry the panel starts at the box's bottom edge. */
  lemma PanelBelowBox(g: Geometry, text: string, es: Entries)
    requires Finite(g)
    ensures var cmds := FaceBody(g, text, Details(g.x, Add(g.y, g.h), g.w, es));
      && |cmds| == 5 + 4 * |TopRows(es)|
      && cmds[3..] == Details(g.x, Fin(g.y.v + g.h.v), g.w, es)
  {
    var y := Add(g.y, g.h);
    assert y == Fin(g.y.v + g.h.v);
    DetailsHead(g.x, y, g.w, es);
  }

  /** The faces' commands in array order. */
  function AllFaces(fs: seq<ContentFace>): (cmds: seq<Cmd>)
  {
    ConcatMap(fs, FaceCommands)
  }

  /** An unrecognised face adds nothing, and the faces after it are drawn
      as if it were absent. */
  lemma UnrecognisedSkipped(a: seq<ContentFace>, f: ContentFace, b: seq<ContentFace>)
    requires Shape(f).None?
    ensures AllFaces(a + [f] + b) == AllFaces(a + b)
  {
    ConcatMapSkip(a, f, b, FaceCommands);
  }

  /** `drawFaces` on a `width` by `height` canvas: a full clear, then every face. */
  function DrawFaces(fs: seq<ContentFace>, width: nat, height: nat): (cmds: seq<Cmd>)
    ensures |cmds| >= 1 && cmds[0] == ClearAll(width, height)
    ensures fs == [] ==> cmds == [ClearAll(width, height)]
  {
    [ClearAll(width, height)] + AllFaces(fs)
  }
}

=== FILE: emotions.dfy ===
/** The backend's emoji table: the seven classifier labels with their emoji,
    and the inverse table computed from it by a dict comprehension. */
module Emotions {

  /** A dict literal, or the items of a dict, as its key/value pairs in order. */
  type Pairs = seq<(string, string)>

  /** `EMOTION_TO_EMOJI`, in declaration order. */
  const LabelEmoji: Pairs := [
    ("angry", "😠"),
    ("disgust", "🤢"),
    ("fear", "😨"),
    ("happy", "😄"),
    ("sad", "😢"),
    ("surprise", "😲"),
    ("neutral", "😐")
  ]

  /** The dict a sequence of pairs builds when inserted in order: a later
      pair overwrites an earlier one with the same key. */
  function Build(ps: Pairs): (m: map<string, string>)
    ensures forall i :: 0 <= i < |ps| ==> ps[i].0 in m
    ensures forall k :: k in m ==> exists i :: 0 <= i < |ps| && ps[i] == (k, m[k])
  {
    if |ps| == 0 then map[]
    else
      var m0 := Build(ps[..|ps| - 1]);
      assert forall i :: 0 <= i < |ps| - 1 ==> ps[..|ps| - 1][i] == ps[i];
      m0[ps[|ps| - 1].0 := ps[|ps| - 1].1]
  }

  /** Each pair with key and value exchanged. */
  function Swap(ps: Pairs): (r: Pairs)
    ensures |r| == |ps|
    ensures forall i :: 0 <= i < |ps| ==> r[i] == (ps[i].1, ps[i].0)
  {
    seq(|ps|, i requires 0 <= i < |ps| => (ps[i].1, ps[i].0))
  }

  /** `{v: k for k, v in d.items()}` over the items `ps`. */
  function Invert(ps: Pairs): map<string, string> {
    Build(Swap(ps))
  }

  const EmotionToEmoji: map<string, string> := Build(LabelEmoji)
  const EmojiToEmotion: map<string, string> := Invert(LabelEmoji)

  predicate DistinctKeys(ps: Pairs) {
    forall i, j :: 0 <= i < j < |ps| ==> ps[i].0 != ps[j].0
  }

  predicate DistinctValues(ps: Pairs) {
    forall i, j :: 0 <= i < j < |ps| ==> ps[i].1 != ps[j].1
  }

  /** With no repeated key, every pair survives the build. */
  lemma {:induction false} BuildLookup(ps: Pairs, i: nat)
    requires DistinctKeys(ps)
    requires i < |ps|
    ensures ps[i].0 in Build(ps) && Build(ps)[ps[i].0] == ps[i].1
  {
    if i < |ps| - 1 {
      var pre := ps[..|ps| - 1];
      assert pre[i] == ps[i];
      assert DistinctKeys(pre) by {
        forall a, b | 0 <= a < b < |pre| ensures pre[a].0 != pre[b].0 {
          assert pre[a] == ps[a] && pre[b] == ps[b];
        }
      }
      BuildLookup(pre, i);
    }
  }

  /** With no repeated key, the dict has one entry per pair. */
  lemma {:induction false} BuildSize(ps: Pairs)
    requires DistinctKeys(ps)
    ensures |Build(ps)| == |ps|
  {
    if |ps| > 0 {
      var pre := ps[..|ps| - 1];
      assert DistinctKeys(pre) by {
        forall a, b | 0 <= a < b < |pre| ensures pre[a].0 != pre[b].0 {
          assert pre[a] == ps[a] && pre[b] == ps[b];
        }
      }
      BuildSize(pre);
    }
  }

  /** The swapped pairs repeat no key exactly when the pairs repeat no value. */
  lemma SwapDistinct(ps: Pairs)
    requires DistinctValues(ps)
    ensures DistinctKeys(Swap(ps))
  {
  }

  /** The table's labels are the seven classifier classes, each with a
      different emoji. */
  lemma TableShape()
    ensures |LabelEmoji| == 7
    ensures DistinctKeys(LabelEmoji)
    ensures DistinctValues(LabelEmoji)
    ensures TableKeys()
  {
    TableLabels();
    TableDistinct();
  }

  lemma TableDistinct()
    ensures DistinctKeys(LabelEmoji)
    ensures DistinctValues(LabelEmoji)
  {
    KeysDistinct();
    ValuesDistinct();
  }

  /** The labels differ in their first letter, except `sad` and `surprise`. */
  lemma KeysDistinct()
    ensures DistinctKeys(LabelEmoji)
  {
    var ks := seq(7, i requires 0 <= i < 7 => LabelEmoji[i].0[0]);
    assert ks == ['a', 'd', 'f', 'h', 's', 's', 'n'];
    assert LabelEmoji[4].0[1] != LabelEmoji[5].0[1];
  }

  /** The emoji differ in their first character. */
  lemma ValuesDistinct()
    ensures DistinctValues(LabelEmoji)
  {
    var vs := seq(7, i requires 0 <= i < 7 => LabelEmoji[i].1[0]);
    assert vs == ['😠', '🤢', '😨', '😄', '😢', '😲', '😐'];
  }

  /** The seven classifier classes. */
  const Labels: set<string> := {"angry", "disgust", "fear", "happy", "sad", "surprise", "neutral"}

  predicate TableKeys() {
    EmotionToEmoji.Keys == Labels
  }

  lemma TableLabels()
    ensures TableKeys()
  {
    LabelsListed();
    forall k | k in EmotionToEmoji ensures k in Labels {
      var i :| 0 <= i < 7 && LabelEmoji[i] == (k, EmotionToEmoji[k]);
    }
  }

  lemma LabelsListed()
    ensures forall i :: 0 <= i < |LabelEmoji| ==> LabelEmoji[i].0 in Labels
    ensures forall k :: k in Labels ==> k in EmotionToEmoji
  {
    LabelsFromTable();
    forall k | k in Labels ensures k in EmotionToEmoji {
      var i := if k == "angry" then 0 else if k == "disgust" then 1 else if k == "fear" then 2
        else if k == "happy" then 3 else if k == "sad" then 4 else if k == "surprise" then 5 else 6;
      assert LabelEmoji[i].0 == k;
    }
  }

  lemma LabelsFromTable()
    ensures forall i :: 0 <= i < |LabelEmoji| ==> LabelEmoji[i].0 in Labels
  {
  }

  /** Looking a label's emoji up in the inverse gives the label back. */
  lemma LabelRoundTrip(k: string)
    requires k in EmotionToEmoji
    ensures EmotionToEmoji[k] in EmojiToEmotion
    ensures EmojiToEmotion[EmotionToEmoji[k]] == k
  {
    TableDistinct();
    var i :| 0 <= i < |LabelEmoji| && LabelEmoji[i] == (k, EmotionToEmoji[k]);
    SwapDistinct(LabelEmoji);
    BuildLookup(Swap(LabelEmoji), i);
  }

  /** Looking an emoji's label up in the forward table gives the emoji back. */
  lemma EmojiRoundTrip(e: string)
    requires e in EmojiToEmotion
    ensures EmojiToEmotion[e] in EmotionToEmoji
    ensures EmotionToEmoji[EmojiToEmotion[e]] == e
  {
    TableDistinct();
    var sw := Swap(LabelEmoji);
    var i :| 0 <= i < |sw| && sw[i] == (e, EmojiToEmotion[e]);
    BuildLookup(LabelEmoji, i);
  }

  /** The inverse has exactly as many entries as the forward table. */
  lemma InverseSize()
    ensures |EmojiToEmotion| == |EmotionToEmoji| == 7
  {
    TableShape();
    BuildSize(LabelEmoji);
    SwapDistinct(LabelEmoji);
    BuildSize(Swap(LabelEmoji));
  }

  /** Why distinct values matter: with two labels sharing an emoji the
      comprehension keeps only the later label, and the first label's round
      trip through the inverse fails. */
  lemma SharedEmojiKeepsLastLabel()
    ensures Invert([("happy", "😄"), ("joy", "😄")]) == map["😄" := "joy"]
  {
    var ps := [("happy", "😄"), ("joy", "😄")];
    assert Swap(ps) == [("😄", "happy"), ("😄", "joy")];
    assert Swap(ps)[..1] == [("😄", "happy")];
    assert Swap(ps)[..1][..0] == [];
  }
}

=== FILE: jslookup.dfy ===
/** Reading a property of a JavaScript object literal used as a lookup table,
    as the icon and colour lookups do: `table[key] || fallback`.

    Such a literal is an ordinary object, so a key that is not one of its own
    properties is still found on `Object.prototype` when it names one of that
    prototype's members; every such member is truthy. */
module JsLookup {

  /** The members every object literal inherits from `Object.prototype`. */
  const PrototypeMembers: set<string> := {
    "constructor", "__proto__", "hasOwnProperty", "isPrototypeOf",
    "propertyIsEnumerable", "toLocaleString", "toString", "valueOf",
    "__defineGetter__", "__defineSetter__", "__lookupGetter__", "__lookupSetter__"
  }

  /** What `table[key]` evaluates to. */
  datatype Found = Own(value: string) | Inherited(member: string) | Undefined

  function Get(table: map<string, string>, key: string): (r: Found)
    ensures r.Own? <==> key in table
    ensures r.Inherited? <==> key !in table && key in PrototypeMembers
    ensures r.Own? ==> r.value == table[key]
    ensures r.Inherited? ==> r.member == key
  {
    if key in table then Own(table[key])
    else if key in PrototypeMembers then Inherited(key)
    else Undefined
  }

  /** `table[key] || fallback` as written: an empty own string and
      `undefined` are falsy, an inherited member is truthy and is returned. */
  function OrAsWritten(table: map<string, string>, key: string, fallback: string): (r: Found)
    ensures !r.Undefined?
    ensures r.Inherited? <==> key !in table && key in PrototypeMembers
  {
    match Get(table, key)
    case Own(v) => if v == "" then Own(fallback) else Own(v)
    case Inherited(m) => Inherited(m)
    case Undefined => Own(fallback)
  }

  /** The lookup restricted to the table's own entries: a non-empty own
      string, else the fallback. */
  function OrDefault(table: map<string, string>, key: string, fallback: string): (r: string)
    ensures r == fallback || (key in table && r == table[key])
    ensures key in table && table[key] != "" ==> r == table[key]
  {
    if key in table && table[key] != "" then table[key] else fallback
  }

  /** The two agree on every key that is not an inherited member's name. */
  lemma OwnLookupAgrees(table: map<string, string>, key: string, fallback: string)
    requires key in table || key !in PrototypeMembers
    ensures OrAsWritten(table, key, fallback) == Own(OrDefault(table, key, fallback))
  {
  }
}

=== FILE: popup_loop.dfy ===
/** The two polling loops of the popup, one interval tick at a time.

    A tick that sends a frame completes later, when its request settles; the
    model splits it into the firing (the synchronous checks up to the
    request) and the settling (the reply, the drawing, the `finally`).
    `outstanding` counts the ticks that have fired a request and not yet
    settled; it is what "single-flight" is about. */
module PopupLoop {
  import opened Base
  import opened Canvas
  import opened PopupRender

  /** How a tick's request ends: something threw (capture, network or JSON
      parsing), the server answered with a non-2xx status, or it answered
      with a parsed body. */
  datatype Reply = Threw | NotOk | Answered(body: Body)

  /** The overlay's rendered size and the media's intrinsic size when the
      reply arrives. */
  datatype Surface = Surface(boxW: real, boxH: real, srcW: nat, srcH: nat)

  predicate ValidSurface(g: Surface) {
    g.boxW >= 0.0 && g.boxH >= 0.0
  }

  /** What a settled tick draws: the first result's faces when the reply
      parsed and has results, nothing otherwise. Neither loop checks whether
      it has been stopped in the meantime. */
  function ReplyCommands(reply: Reply, g: Surface, measure: string -> real): (cmds: seq<Cmd>)
    requires ValidSurface(g)
    ensures !reply.Answered? ==> cmds == []
    ensures reply.Answered? && FirstFaces(reply.body).Some? ==>
      cmds == DrawFaceDetection(FirstFaces(reply.body).value, g.boxW, g.boxH, g.srcW, g.srcH, measure)
    ensures reply.Answered? && FirstFaces(reply.body).None? ==> cmds == []
  {
    match reply
    case Answered(body) =>
      (match FirstFaces(body)
       case Some(faces) => DrawFaceDetection(faces, g.boxW, g.boxH, g.srcW, g.srcH, measure)
       case None => [])
    case _ => []
  }

  // ---------------------------------------------------------------------
  // The video loop: a closure flag `isAnalyzing` guards each tick.

  /** The state of one video detection session. */
  datatype VideoLoop = VideoLoop(analyzing: bool, outstanding: nat)

  const VideoStart: VideoLoop := VideoLoop(false, 0)

  datatype Playback = Playback(paused: bool, ended: bool)

  /** A tick fires: paused or ended playback, or a tick still in flight,
      makes it return at once; otherwise it raises the flag and sends a
      frame. The second component says whether a frame was sent. */
  function VideoFire(v: VideoLoop, p: Playback): (r: (VideoLoop, bool))
    ensures p.paused || p.ended || v.analyzing ==> r == (v, false)
    ensures !(p.paused || p.ended || v.analyzing) ==> r == (VideoLoop(true, v.outstanding + 1), true)
  {
    if p.paused || p.ended then (v, false)
    else if v.analyzing then (v, false)
    else (VideoLoop(true, v.outstanding + 1), true)
  }

  /** A sent frame's request settles: whatever the outcome, the `finally`
      lowers the flag. */
  function VideoSettle(v: VideoLoop, reply: Reply, g: Surface, measure: string -> real): (r: (VideoLoop, seq<Cmd>))
    requires v.outstanding > 0
    requires ValidSurface(g)
    ensures !r.0.analyzing
    ensures r.0.outstanding == v.outstanding - 1
    ensures r.1 == ReplyCommands(reply, g, measure)
  {
    (VideoLoop(false, v.outstanding - 1), ReplyCommands(reply, g, measure))
  }

  datatype VideoEvent = Fire(p: Playback) | Settle(reply: Reply, g: Surface)

  /** One event; a settlement with nothing in flight cannot occur and is
      ignored. */
  function VideoStep(v: VideoLoop, e: VideoEvent, measure: string -> real): (r: VideoLoop)
    ensures SingleFlight(v) ==> SingleFlight(r)
    ensures r.outstanding <= v.outstanding + 1
    ensures r.outstanding > v.outstanding ==> e.Fire? && !v.analyzing && r.analyzing
    ensures e.Settle? && v.outstanding > 0 && ValidSurface(e.g) ==> !r.analyzing && r.outstanding == v.outstanding - 1
  {
    match e
    case Fire(p) => VideoFire(v, p).0
    case Settle(reply, g) => if v.outstanding > 0 && ValidSurface(g) then VideoSettle(v, reply, g, measure).0 else v
  }

  function VideoRun(v: VideoLoop, es: seq<VideoEvent>, measure: string -> real): VideoLoop
    decreases |es|
  {
    if |es| == 0 then v else VideoRun(VideoStep(v, es[0], measure), es[1..], measure)
  }

  /** The flag is raised exactly while one request is in flight. */
  predicate SingleFlight(v: VideoLoop) {
    v.outstanding == if v.analyzing then 1 else 0
  }

  /** However ticks and settlements interleave, a video session never has
      more than one request in flight. */
  lemma {:induction false} VideoRunSingleFlight(v: VideoLoop, es: seq<VideoEvent>, measure: string -> real)
    requires SingleFlight(v)
    ensures SingleFlight(VideoRun(v, es, measure))
    ensures VideoRun(v, es, measure).outstanding <= 1
    decreases |es|
  {
    if |es| > 0 {
      VideoRunSingleFlight(VideoStep(v, es[0], measure), es[1..], measure);
    }
  }

  /** A failed request still releases the session: the next tick with the
      video playing sends a new frame. */
  lemma VideoRecoversAfterFailure(measure: string -> real, g: Surface)
    requires ValidSurface(g)
    ensures var playing := Playback(false, false);
      var es := [Fire(playing), Settle(Threw, g), Fire(playing)];
      VideoRun(VideoStart, es, measure) == VideoLoop(true, 1)
  {
    var playing := Playback(false, false);
    var es := [Fire(playing), Settle(Threw, g), Fire(playing)];
    var v1 := VideoStep(VideoStart, es[0], measure);
    var v2 := VideoStep(v1, es[1], measure);
    assert v2 == VideoStart;
    assert es[1..][1..] == [Fire(playing)];
    assert VideoRun(v2, es[1..][1..], measure) == VideoRun(VideoLoop(true, 1), [], measure);
  }

  // ---------------------------------------------------------------------
  // The camera loop: no busy flag.

  /** The number of camera ticks whose request is in flight. */
  datatype CameraLoop = CameraLoop(outstanding: nat)

  /** What a camera tick does when it fires. */
  datatype CameraAction = StopLoop | Skip | Send

  /** A tick fires: without a stream it stops the loop; before the preview
      has a frame size it does nothing; otherwise it sends a frame, even if
      earlier ones are still in flight. */
  function CameraFire(c: CameraLoop, hasStream: bool, frameW: nat, frameH: nat): (r: (CameraLoop, CameraAction))
    ensures !hasStream ==> r == (c, StopLoop)
    ensures hasStream && (frameW == 0 || frameH == 0) ==> r == (c, Skip)
    ensures hasStream && frameW > 0 && frameH > 0 ==> r == (CameraLoop(c.outstanding + 1), Send)
  {
    if !hasStream then (c, StopLoop)
    else if frameW == 0 || frameH == 0 then (c, Skip)
    else (CameraLoop(c.outstanding + 1), Send)
  }

  function CameraSettle(c: CameraLoop, reply: Reply, g: Surface, measure: string -> real): (r: (CameraLoop, seq<Cmd>))
    requires c.outstanding > 0
    requires ValidSurface(g)
    ensures r.0.outstanding == c.outstanding - 1
    ensures r.1 == ReplyCommands(reply, g, measure)
  {
    (CameraLoop(c.outstanding - 1), ReplyCommands(reply, g, measure))
  }

  /** Unlike the video loop, two camera ticks in a row put two requests in
      flight. */
  lemma CameraOverlaps(frameW: nat, frameH: nat)
    requires frameW > 0 && frameH > 0
    ensures var first := CameraFire(CameraLoop(0), true, frameW, frameH);
      var second := CameraFire(first.0, true, frameW, frameH);
      first.1 == Send && second.1 == Send && second.0.outstanding == 2
  {
  }

  /** Whichever loop a reply belongs to, it is drawn: a parsed reply with
      results always clears the overlay, whatever happened since its tick
      fired. */
  lemma LateReplyStillDrawn(body: Body, g: Surface, measure: string -> real)
    requires ValidSurface(g)
    requires FirstFaces(body).Some?
    ensures var cmds := ReplyCommands(Answered(body), g, measure);
      |cmds| >= 1 && cmds[0] == ClearAll(CanvasSize(g.boxW), CanvasSize(g.boxH))
  {
    ClearsFirst(FirstFaces(body).value, g.boxW, g.boxH, g.srcW, g.srcH, measure);
  }
}

=== FILE: popup_modes.dfy ===
/** The popup's mode switching and teardown, as transitions of one state
    record.

    Interval ids and camera streams are modelled as resources: `liveTimers`
    holds the intervals the browser is still running and `liveStreams` the
    streams whose tracks have not been stopped, next to the handles the
    popup keeps (`videoTimer` for `window.videoDetectionInterval`,
    `realTimeTimer` for `realTimeInterval`, `stream` for `cameraStream`).
    A resource no handle refers to can never be released: a leak. */
module PopupModes {
  import opened Base

  datatype Mode = ImageMode | VideoMode | CameraMode

  /** The overlay canvases, by element id. */
  datatype Overlay = ImageOverlay | VideoOverlay | CameraOverlay

  datatype Popup = Popup(
    mode: Mode,
    shown: set<Mode>,          // sections displayed
    active: set<Mode>,         // mode buttons carrying the `active` class
    videoTimer: Option<nat>,
    realTimeTimer: Option<nat>,
    realTimeChecked: bool,     // the real-time toggle
    liveTimers: set<nat>,
    nextTimer: nat,            // the id the next interval will get
    stream: Option<nat>,
    liveStreams: set<nat>,
    nextStream: nat,
    overlays: set<Overlay>,    // overlay canvases attached to the document
    videoLoaded: bool,         // a video file has been chosen
    videoPaused: bool,
    videoTime: real,
    previewOn: bool,           // the camera preview shows the stream
    resultsCleared: bool,      // the results pane shows its placeholder
    status: string)

  const ReadyStatus := "请选择文件或开启摄像头"
  const VideoStoppedStatus := "视频检测已停止"
  const RealTimeStoppedStatus := "实时检测已停止"
  const CameraClosedStatus := "摄像头已关闭"
  const CameraOpenedStatus := "摄像头已开启"
  const NoVideoStatus := "请先选择视频文件"
  const VideoStartedStatus := "开始视频实时检测..."
  const RealTimeStartedStatus := "开始实时检测..."

  /** The page as loaded, before the start-up `switchMode('image')`. */
  const Loaded: Popup := Popup(ImageMode, {}, {}, None, None, false, {}, 1, None, {}, 1,
                               {}, false, true, 0.0, false, false, "")

  /** The handles a slot holds, as a set. */
  function Held(h: Option<nat>): (r: set<nat>)
    ensures h.None? ==> r == {}
    ensures h.Some? ==> r == {h.value}
  {
    if h.Some? then {h.value} else {}
  }

  /** Every running interval and every open stream is reachable from a
      handle, the two interval handles differ, and ids handed out are below
      the next fresh one; the real-time interval runs only while its toggle
      is checked. */
  predicate NoLeaks(s: Popup) {
    && s.liveTimers == Held(s.videoTimer) + Held(s.realTimeTimer)
    && (s.videoTimer.Some? && s.realTimeTimer.Some? ==> s.videoTimer != s.realTimeTimer)
    && (forall t :: t in s.liveTimers ==> t < s.nextTimer)
    && s.liveStreams == Held(s.stream)
    && (forall k :: k in s.liveStreams ==> k < s.nextStream)
    && (s.realTimeTimer.Some? ==> s.realTimeChecked)
  }

  lemma LoadedNoLeaks()
    ensures NoLeaks(Loaded)
  {
  }

  /** `stopVideoAnalysis`: clear and forget the video interval, pause, drop
      the video overlay. */
  function StopVideoAnalysis(s: Popup): (r: Popup)
    ensures NoLeaks(s) ==> NoLeaks(r)
    ensures r.videoTimer.None? && r.videoPaused && VideoOverlay !in r.overlays
    ensures r.liveTimers == s.liveTimers - Held(s.videoTimer)
    ensures r.overlays == s.overlays - {VideoOverlay}
    ensures r.realTimeTimer == s.realTimeTimer && r.stream == s.stream && r.liveStreams == s.liveStreams
    ensures r.status == VideoStoppedStatus
  {
    s.(videoTimer := None, liveTimers := s.liveTimers - Held(s.videoTimer), videoPaused := true,
       overlays := s.overlays - {VideoOverlay}, status := VideoStoppedStatus)
  }

  /** `stopRealTime`: clear and forget the real-time interval and uncheck the
      toggle. The camera overlay stays attached. */
  function StopRealTime(s: Popup): (r: Popup)
    ensures NoLeaks(s) ==> NoLeaks(r)
    ensures r.realTimeTimer.None? && !r.realTimeChecked
    ensures r.liveTimers == s.liveTimers - Held(s.realTimeTimer)
    ensures r.overlays == s.overlays
    ensures r.videoTimer == s.videoTimer && r.stream == s.stream && r.liveStreams == s.liveStreams
    ensures r.status == RealTimeStoppedStatus
  {
    s.(realTimeTimer := None, liveTimers := s.liveTimers - Held(s.realTimeTimer), realTimeChecked := false,
       status := RealTimeStoppedStatus)
  }

  /** `stopCamera`: stop real-time detection, stop the stream's tracks and
      forget it, hide the preview, drop the camera overlay. */
  function StopCamera(s: Popup): (r: Popup)
    ensures NoLeaks(s) ==> NoLeaks(r)
    ensures r.realTimeTimer.None? && r.stream.None? && !r.previewOn && CameraOverlay !in r.overlays
    ensures r.liveStreams == s.liveStreams - Held(s.stream)
    ensures r.liveTimers == s.liveTimers - Held(s.realTimeTimer)
    ensures r.videoTimer == s.videoTimer
    ensures r.status == CameraClosedStatus
  {
    var t := StopRealTime(s);
    t.(stream := None, liveStreams := t.liveStreams - Held(t.stream), previewOn := false,
       overlays := t.overlays - {CameraOverlay}, status := CameraClosedStatus)
  }

  /** `stopAllDetections`: both loops stop; the camera is closed too unless
      the current mode is the camera mode. */
  function StopAllDetections(s: Popup): (r: Popup)
    ensures NoLeaks(s) ==> NoLeaks(r)
    ensures r.videoTimer.None? && r.realTimeTimer.None?
    ensures r.liveTimers == s.liveTimers - Held(s.videoTimer) - Held(s.realTimeTimer)
    ensures s.mode != CameraMode ==> r.stream.None? && r.liveStreams == s.liveStreams - Held(s.stream)
    ensures s.mode == CameraMode ==> r.stream == s.stream && r.liveStreams == s.liveStreams
    ensures r.mode == s.mode
  {
    var t := StopRealTime(StopVideoAnalysis(s));
    if t.stream.Some? && t.mode != CameraMode then StopCamera(t) else t
  }

  /** `clearAllOverlays`: every overlay removed, the video paused and rewound. */
  function ClearAllOverlays(s: Popup): (r: Popup)
    ensures NoLeaks(s) ==> NoLeaks(r)
    ensures r.overlays == {} && r.videoPaused && r.videoTime == 0.0
    ensures r.liveTimers == s.liveTimers && r.liveStreams == s.liveStreams
  {
    s.(overlays := {}, videoPaused := true, videoTime := 0.0)
  }

  /** `switchMode(m)`: select `m`'s tab and section, tear everything down,
      clear the results. */
  function SwitchMode(s: Popup, m: Mode): (r: Popup)
    ensures NoLeaks(s) ==> NoLeaks(r)
    ensures r.mode == m && r.shown == {m} && r.active == {m}
    ensures r.videoTimer.None? && r.realTimeTimer.None? && !r.realTimeChecked
    ensures r.liveTimers == s.liveTimers - Held(s.videoTimer) - Held(s.realTimeTimer)
    ensures m != CameraMode ==> r.stream.None? && r.liveStreams == s.liveStreams - Held(s.stream)
    ensures m == CameraMode ==> r.stream == s.stream && r.liveStreams == s.liveStreams
    ensures r.overlays == {} && r.videoPaused && r.videoTime == 0.0
    ensures r.resultsCleared && r.status == ReadyStatus
  {
    var t := s.(mode := m, active := {m}, shown := {m});
    ClearAllOverlays(StopAllDetections(t)).(resultsCleared := true, status := ReadyStatus)
  }

  /** Two states that differ at most in their status line. */
  predicate SameButStatus(a: Popup, b: Popup) {
    a.(status := "") == b.(status := "")
  }

  /** From a leak-free state, switching mode leaves no interval running and,
      outside camera mode, no stream open. */
  lemma SwitchModeReleases(s: Popup, m: Mode)
    requires NoLeaks(s)
    ensures NoLeaks(SwitchMode(s, m))
    ensures SwitchMode(s, m).liveTimers == {}
    ensures m != CameraMode ==> SwitchMode(s, m).liveStreams == {}
  {
  }

  /** Switching to the mode one is in changes nothing more. */
  lemma SwitchModeIdempotent(s: Popup, m: Mode)
    ensures SwitchMode(SwitchMode(s, m), m) == SwitchMode(s, m)
  {
  }

  lemma StopVideoAnalysisIdempotent(s: Popup)
    ensures StopVideoAnalysis(StopVideoAnalysis(s)) == StopVideoAnalysis(s)
  {
  }

  lemma StopRealTimeIdempotent(s: Popup)
    ensures StopRealTime(StopRealTime(s)) == StopRealTime(s)
  {
  }

  lemma StopCameraIdempotent(s: Popup)
    ensures StopCamera(StopCamera(s)) == StopCamera(s)
  {
  }

  /** Stopping everything twice is harmless; only the status line may
      differ, because a second call no longer closes the camera and so
      ends on the real-time message instead. */
  lemma StopAllDetectionsIdempotent(s: Popup)
    ensures SameButStatus(StopAllDetections(StopAllDetections(s)), StopAllDetections(s))
  {
  }

  /** The status line does make the difference. */
  lemma StopAllDetectionsStatus()
    ensures var s := Loaded.(mode := VideoMode, stream := Some(0));
      StopAllDetections(s).status == CameraClosedStatus
      && StopAllDetections(StopAllDetections(s)).status == RealTimeStoppedStatus
  {
  }

  /** `handleVideoUpload`: a file is chosen; the preview reloads. */
  function LoadVideo(s: Popup): (r: Popup)
    ensures NoLeaks(s) ==> NoLeaks(r)
    ensures r.videoLoaded && r.videoPaused && r.videoTime == 0.0
    ensures r.liveTimers == s.liveTimers && r.videoTimer == s.videoTimer
  {
    s.(videoLoaded := true, videoPaused := true, videoTime := 0.0)
  }

  /** The video overlay is attached, playback restarts, and a fresh interval
      is scheduled. */
  function StartVideoLoop(s: Popup): (r: Popup)
    ensures r.videoTimer == Some(s.nextTimer) && r.liveTimers == s.liveTimers + {s.nextTimer}
    ensures r.nextTimer == s.nextTimer + 1
  {
    s.(overlays := s.overlays + {VideoOverlay}, videoTime := 0.0, videoPaused := false,
       status := VideoStartedStatus, videoTimer := Some(s.nextTimer),
       liveTimers := s.liveTimers + {s.nextTimer}, nextTimer := s.nextTimer + 1)
  }

  /** `analyzeVideo` as written: a new interval's id overwrites the handle,
      so an interval still running is no longer reachable. */
  function AnalyzeVideoAsWritten(s: Popup): (r: Popup)
    ensures !s.videoLoaded ==> r == s.(status := NoVideoStatus)
    ensures s.videoLoaded ==> r.videoTimer == Some(s.nextTimer) && r.liveTimers == s.liveTimers + {s.nextTimer}
    // from a leak-free state the result is leak-free exactly when no video
    // interval was running
    ensures NoLeaks(s) && s.videoLoaded ==> (NoLeaks(r) <==> s.videoTimer.None?)
  {
    if !s.videoLoaded then s.(status := NoVideoStatus) else StartVideoLoop(s)
  }

  /** Analysing, choosing another file (which re-enables the analyse
      button) and analysing again, then stopping, leaves the first interval
      running with no handle to clear it. */
  lemma AnalyzeTwiceLeaks(s: Popup)
    requires NoLeaks(s) && s.videoLoaded
    ensures var r := StopAllDetections(AnalyzeVideoAsWritten(LoadVideo(AnalyzeVideoAsWritten(s))));
      s.nextTimer in r.liveTimers && !NoLeaks(r)
  {
  }

  /** `analyzeVideo` with the previous interval cleared before the new one
      is scheduled. */
  function AnalyzeVideo(s: Popup): (r: Popup)
    ensures NoLeaks(s) ==> NoLeaks(r)
    ensures !s.videoLoaded ==> r == s.(status := NoVideoStatus)
    ensures s.videoLoaded ==> r.videoTimer == Some(s.nextTimer) && r.liveTimers == s.liveTimers - Held(s.videoTimer) + {s.nextTimer}
  {
    if !s.videoLoaded then s.(status := NoVideoStatus)
    else
      var t := s.(videoTimer := None, liveTimers := s.liveTimers - Held(s.videoTimer));
      StartVideoLoop(t)
  }

  /** `startCamera` once `getUserMedia` grants a stream: the stream is held
      and shown. */
  function StartCamera(s: Popup): (r: Popup)
    ensures r.stream == Some(s.nextStream) && r.liveStreams == s.liveStreams + {s.nextStream}
    ensures r.previewOn
  {
    s.(stream := Some(s.nextStream), liveStreams := s.liveStreams + {s.nextStream},
       nextStream := s.nextStream + 1, previewOn := true)
  }

  /** The preview's metadata has loaded: the camera overlay is attached. */
  function CameraReady(s: Popup): (r: Popup)
    ensures NoLeaks(s) ==> NoLeaks(r)
    ensures CameraOverlay in r.overlays
    ensures r.liveStreams == s.liveStreams && r.liveTimers == s.liveTimers
  {
    s.(overlays := s.overlays + {CameraOverlay}, status := CameraOpenedStatus)
  }

  /** Opening the camera keeps the state leak-free when no stream is held. */
  lemma StartCameraNoLeaks(s: Popup)
    requires NoLeaks(s) && s.stream.None?
    ensures NoLeaks(StartCamera(s)) && NoLeaks(CameraReady(StartCamera(s)))
  {
  }

  /** A second grant while a stream is held overwrites the handle, and the
      first stream can no longer be stopped. */
  lemma SecondStartLeaksStream(s: Popup)
    requires NoLeaks(s) && s.stream.Some?
    ensures var r := StopCamera(StartCamera(s));
      s.stream.value in r.liveStreams && !NoLeaks(r)
  {
  }

  /** The real-time toggle changes: checking it starts the camera loop,
      unchecking it stops the loop. */
  function ToggleRealTime(s: Popup): (r: Popup)
    ensures NoLeaks(s) ==> NoLeaks(r)
    ensures r.realTimeChecked == !s.realTimeChecked
    ensures !s.realTimeChecked ==> r.realTimeTimer == Some(s.nextTimer) && CameraOverlay in r.overlays
    ensures s.realTimeChecked ==> r == StopRealTime(s)
  {
    if s.realTimeChecked then StopRealTime(s)
    else
      s.(realTimeChecked := true, overlays := s.overlays + {CameraOverlay}, status := RealTimeStartedStatus,
         realTimeTimer := Some(s.nextTimer), liveTimers := s.liveTimers + {s.nextTimer},
         nextTimer := s.nextTimer + 1)
  }

  /** A camera tick that finds no stream stops the loop. */
  function CameraTickWithoutStream(s: Popup): (r: Popup)
    requires s.stream.None?
    ensures r.realTimeTimer.None? && !r.realTimeChecked
    ensures NoLeaks(s) ==> NoLeaks(r) && r.liveStreams == {} && r.liveTimers == Held(s.videoTimer)
  {
    StopRealTime(s)
  }

  /** Stopping the real-time loop leaves the camera overlay attached, so a
      reply still in flight is drawn onto a visible overlay. */
  lemma StopRealTimeKeepsCameraOverlay(s: Popup)
    requires CameraOverlay in s.overlays
    ensures CameraOverlay in StopRealTime(s).overlays
    ensures StopRealTime(s).realTimeTimer.None?
  {
  }
}

=== FILE: popup_render.dfy ===
/** The popup's overlay renderer: boxes reported in the analysed frame's
    pixels are scaled onto the overlay canvas, each with a label band, a
    percentage and an icon; plus the playback clock text.

    `measureText` is a parameter (the width a string takes in the label font). */
module PopupRender {
  import opened Base
  import opened Text
  import opened Canvas
  import JsLookup

  /** One entry of a response's `faces` array as the popup reads it. */
  datatype Face = Face(box: Option<seq<real>>, emotion: Option<string>, score: Option<real>)

  /** The `faces` argument: falsy, some non-array value, or an array. */
  datatype FacesArg = Absent | NotAnArray | Faces(items: seq<Face>)

  const BoxColour := "#FF5252"
  const BoxLineWidth := 3.0
  const LabelHeight := 30.0
  const LabelBackground := "rgba(0, 0, 0, 0.7)"
  const LabelColour := "#FFFFFF"
  const LabelFont := "bold 16px Arial"
  const IconFont := "20px Arial"

  /** The icon table, keyed by lower-case label. */
  const Icons: map<string, string> := map[
    "happy" := "😊", "happiness" := "😊",
    "sad" := "😢", "sadness" := "😢",
    "anger" := "😠", "angry" := "😠",
    "disgust" := "🤢",
    "fear" := "😨",
    "surprise" := "😲", "surprised" := "😲",
    "neutral" := "😐"
  ]
  const DefaultIcon := "😀"

  /** The icon drawn next to a label: the table entry for the lower-cased
      label, or the default; only the table's own entries are consulted. */
  function EmotionEmoji(name: string): (icon: string)
    ensures icon == DefaultIcon || icon in Icons.Values
    ensures ToLower(name) in Icons <==> icon != DefaultIcon
    ensures ToLower(name) in Icons ==> icon == Icons[ToLower(name)]
  {
    JsLookup.OrDefault(Icons, ToLower(name), DefaultIcon)
  }

  /** No icon key is the name of an `Object.prototype` member. */
  lemma IconKeysOwn()
    ensures Icons.Keys !! JsLookup.PrototypeMembers
  {
  }

  /** The same lookup as written, where a label naming an `Object.prototype`
      member yields that member instead of an icon. */
  function EmojiAsWritten(name: string): (r: JsLookup.Found)
    ensures ToLower(name) !in JsLookup.PrototypeMembers ==> r == JsLookup.Own(EmotionEmoji(name))
    ensures r.Inherited? <==> ToLower(name) in JsLookup.PrototypeMembers
    ensures r.Inherited? ==> r.member == ToLower(name) && EmotionEmoji(name) == DefaultIcon
  {
    IconKeysOwn();
    JsLookup.OrAsWritten(Icons, ToLower(name), DefaultIcon)
  }

  /** A label that lower-cases to `constructor` gets the `Object` function,
      which `fillText` renders as its source text, not an icon. */
  lemma InheritedEmojiName()
    ensures EmojiAsWritten("Constructor") == JsLookup.Inherited("constructor")
    ensures EmotionEmoji("Constructor") == DefaultIcon
  {
    assert ToLower("Constructor") == "constructor";
  }

  /** The lookup ignores the case of ASCII letters. */
  lemma EmojiIgnoresCase(a: string, b: string)
    requires ToLower(a) == ToLower(b)
    ensures EmotionEmoji(a) == EmotionEmoji(b)
  {
  }

  /** The label text: the emotion, a space, the integer percentage, `%`. */
  function LabelText(emotion: string, percent: int): (t: string)
    ensures |t| > |emotion| + 1
    ensures t[..|emotion|] == emotion && t[|emotion|] == ' ' && t[|t| - 1] == '%'
  {
    emotion + " " + IntToString(percent) + "%"
  }

  /** Reads a label back: what precedes the last space, and the integer
      between it and the trailing `%`. */
  function ParseLabel(t: string): Option<(string, int)> {
    if |t| < 2 || t[|t| - 1] != '%' then None
    else
      var k := LastSpace(t[..|t| - 1]);
      if k < 0 then None
      else match ParseInt(t[k + 1..|t| - 1])
        case None => None
        case Some(p) => Some((t[..k], p))
  }

  /** The index of the last space in `s`, or -1. */
  function LastSpace(s: string): (k: int)
    ensures -1 <= k < |s|
    ensures k >= 0 ==> s[k] == ' '
    ensures forall i :: k < i < |s| ==> s[i] != ' '
  {
    if |s| == 0 then -1 else if s[|s| - 1] == ' ' then |s| - 1 else LastSpace(s[..|s| - 1])
  }

  lemma NoSpaceInNumber(p: int)
    ensures forall i :: 0 <= i < |IntToString(p)| ==> IntToString(p)[i] != ' '
  {
    var s := IntToString(p);
    if p < 0 {
      assert forall i :: 1 <= i < |s| ==> s[i] == s[1..][i - 1];
    }
  }

  /** Every label text reads back as its emotion and percentage, whatever
      spaces the emotion itself contains. */
  lemma LabelRoundTrip(emotion: string, percent: int)
    ensures ParseLabel(LabelText(emotion, percent)) == Some((emotion, percent))
  {
    var n := IntToString(percent);
    var t := LabelText(emotion, percent);
    var body := t[..|t| - 1];
    assert body == emotion + " " + n;
    NoSpaceInNumber(percent);
    assert LastSpace(body) == |emotion| by {
      forall i | |emotion| < i < |body| ensures body[i] != ' ' {
        assert body[i] == n[i - |emotion| - 1];
      }
      LastSpaceIs(body, |emotion|);
    }
    assert t[|emotion| + 1..|t| - 1] == n;
    assert t[..|emotion|] == emotion;
    IntToStringRoundTrip(percent);
  }

  lemma {:induction false} LastSpaceIs(s: string, k: nat)
    requires k < |s| && s[k] == ' '
    requires forall i :: k < i < |s| ==> s[i] != ' '
    ensures LastSpace(s) == k
    decreases |s|
  {
    if k < |s| - 1 {
      LastSpaceIs(s[..|s| - 1], k);
    }
  }

  /** `face.emotion || 'unknown'`. */
  function EmotionName(f: Face): (e: string)
    ensures e != ""
    ensures e == "unknown" || Some(e) == f.emotion
  {
    if f.emotion.Some? && f.emotion.value != "" then f.emotion.value else "unknown"
  }

  /** `face.score ? Math.round(face.score * 100) : 0`: the nearest whole
      percentage, 0 when the score is missing or zero. */
  function ScorePercent(f: Face): (p: int)
    ensures f.score.None? ==> p == 0
    ensures f.score.Some? ==> (p as real) - 0.5 <= f.score.value * 100.0 < (p as real) + 0.5
  {
    if f.score.Some? && f.score.value != 0.0 then RoundHalfUp(f.score.value * 100.0) else 0
  }

  /** `drawEmotionLabel`: a band of height 30 sitting on the box's top edge,
      at least as wide as the box and 20 wider than the text, the text inset
      by 10, and the icon 25 from the band's right end. */
  function DrawEmotionLabel(x: real, y: real, width: real, emotion: string, percent: int, measure: string -> real): (cmds: seq<Cmd>)
    ensures |cmds| == 3 && cmds[0].FillRect? && cmds[1].FillText? && cmds[2].FillText?
    ensures cmds[0].area.x == x && cmds[0].area.y + cmds[0].area.h == y && cmds[0].area.h == LabelHeight
    ensures cmds[0].area.w >= width && cmds[0].area.w >= measure(LabelText(emotion, percent)) + 20.0
    ensures cmds[0].area.w == width || cmds[0].area.w == measure(LabelText(emotion, percent)) + 20.0
    ensures cmds[1].text == LabelText(emotion, percent)
    ensures cmds[1].x == x + 10.0 && cmds[1].y == y - 10.0
    ensures cmds[2].text == EmotionEmoji(emotion)
    ensures cmds[2].x == x + cmds[0].area.w - 25.0 && cmds[2].y == y - 10.0
    // translucent black band, white text in the bold label font, icon in its own font
    ensures cmds[0].fill == LabelBackground
    ensures cmds[1].fill == LabelColour && cmds[1].font == LabelFont
    ensures cmds[2].fill == LabelColour && cmds[2].font == IconFont
  {
    var text := LabelText(emotion, percent);
    var tw := measure(text) + 20.0;
    var labelWidth := if width >= tw then width else tw;
    [ FillRect(Rect(x, y - LabelHeight, labelWidth, LabelHeight), LabelBackground),
      FillText(text, x + 10.0, y - 10.0, LabelColour, LabelFont),
      FillText(EmotionEmoji(emotion), x + labelWidth - 25.0, y - LabelHeight + 20.0, LabelColour, IconFont) ]
  }

  predicate WellFormed(f: Face) {
    f.box.Some? && |f.box.value| == 4
  }

  /** A reported `[x, y, width, height]` box scaled per axis. */
  function ScaledBox(b: seq<real>, sx: real, sy: real): Rect
    requires |b| == 4
  {
    Rect(b[0] * sx, b[1] * sy, b[2] * sx, b[3] * sy)
  }

  /** One face's commands at scale `sx`, `sy`: nothing without a
      four-element box, otherwise the scaled box then its label band. */
  function DrawFace(f: Face, sx: real, sy: real, measure: string -> real): (cmds: seq<Cmd>)
    ensures |cmds| == if WellFormed(f) then 4 else 0
    ensures WellFormed(f) ==> cmds[0] == StrokeRect(ScaledBox(f.box.value, sx, sy), BoxColour, BoxLineWidth)
  {
    if WellFormed(f) then
      var area := ScaledBox(f.box.value, sx, sy);
      [StrokeRect(area, BoxColour, BoxLineWidth)] + DrawEmotionLabel(area.x, area.y, area.w, EmotionName(f), ScorePercent(f), measure)
    else []
  }

  /** The label band of a drawn face sits on its scaled box's top edge and
      names the face's emotion and percentage. */
  lemma FaceLabel(f: Face, sx: real, sy: real, measure: string -> real)
    requires WellFormed(f)
    ensures var area := ScaledBox(f.box.value, sx, sy);
      DrawFace(f, sx, sy, measure)[1..] == DrawEmotionLabel(area.x, area.y, area.w, EmotionName(f), ScorePercent(f), measure)
  {
  }

  /** Drawing one face at scale `sx`, `sy`, as a function of the face. */
  function FaceDrawer(sx: real, sy: real, measure: string -> real): Face -> seq<Cmd> {
    f => DrawFace(f, sx, sy, measure)
  }

  /** The faces' commands in array order. */
  function DrawFaces(fs: seq<Face>, sx: real, sy: real, measure: string -> real): (cmds: seq<Cmd>)
  {
    ConcatMap(fs, FaceDrawer(sx, sy, measure))
  }

  /** A face without a four-element box adds nothing, and the faces after it
      are drawn as if it were absent. */
  lemma MalformedFaceSkipped(a: seq<Face>, f: Face, b: seq<Face>, sx: real, sy: real, measure: string -> real)
    requires !WellFormed(f)
    ensures DrawFaces(a + [f] + b, sx, sy, measure) == DrawFaces(a + b, sx, sy, measure)
  {
    ConcatMapSkip(a, f, b, FaceDrawer(sx, sy, measure));
  }

  /** The well-formed faces, in order. */
  function Boxed(fs: seq<Face>): (r: seq<Face>)
    ensures |r| <= |fs|
    ensures forall i :: 0 <= i < |r| ==> WellFormed(r[i])
  {
    Filter(fs, WellFormed)
  }

  /** Four commands per well-formed face, and the `j`-th face drawn starts
      with its scaled box. */
  lemma DrawFacesAt(fs: seq<Face>, sx: real, sy: real, measure: string -> real, j: nat)
    ensures |DrawFaces(fs, sx, sy, measure)| == 4 * |Boxed(fs)|
    ensures j < |Boxed(fs)| ==>
      var b := Boxed(fs)[j].box.value;
      DrawFaces(fs, sx, sy, measure)[4 * j] == StrokeRect(ScaledBox(b, sx, sy), BoxColour, BoxLineWidth)
  {
    var draw := FaceDrawer(sx, sy, measure);
    ConcatMapFiltered(fs, draw, WellFormed, j);
    if j < |Boxed(fs)| {
      var cmds := DrawFaces(fs, sx, sy, measure);
      assert cmds[4 * j] == cmds[4 * j .. 4 * j + 4][0];
    }
  }

  /** `drawFaceDetection` onto an overlay whose rendered size is
      `boxW` by `boxH`, for a frame of `srcW` by `srcH` pixels. A zero
      source dimension makes every scaled coordinate non-finite, so the
      canvas ignores every face command and only the clear remains. */
  function DrawFaceDetection(faces: FacesArg, boxW: real, boxH: real, srcW: nat, srcH: nat, measure: string -> real): (cmds: seq<Cmd>)
    requires boxW >= 0.0 && boxH >= 0.0
    ensures faces.Absent? <==> cmds == []
  {
    if faces.Absent? then []
    else
      var dw := CanvasSize(boxW);
      var dh := CanvasSize(boxH);
      [ClearAll(dw, dh)] +
        (if faces.NotAnArray? || |faces.items| == 0 || srcW == 0 || srcH == 0 then []
         else DrawFaces(faces.items, dw as real / srcW as real, dh as real / srcH as real, measure))
  }

  /** The first command wipes the whole resized overlay, and an empty or
      non-array `faces` draws nothing more. */
  lemma ClearsFirst(faces: FacesArg, boxW: real, boxH: real, srcW: nat, srcH: nat, measure: string -> real)
    requires boxW >= 0.0 && boxH >= 0.0
    requires !faces.Absent?
    ensures var cmds := DrawFaceDetection(faces, boxW, boxH, srcW, srcH, measure);
      && |cmds| >= 1
      && cmds[0] == ClearAll(CanvasSize(boxW), CanvasSize(boxH))
      && (faces.NotAnArray? || faces.items == [] ==> cmds == [cmds[0]])
  {
  }

  /** With positive source dimensions, the `j`-th box drawn is the `j`-th
      well-formed face's box scaled by display/source per axis. */
  lemma ScaledBoxes(fs: seq<Face>, boxW: real, boxH: real, srcW: nat, srcH: nat, measure: string -> real, j: nat)
    requires boxW >= 0.0 && boxH >= 0.0 && srcW > 0 && srcH > 0
    requires j < |Boxed(fs)|
    ensures var cmds := DrawFaceDetection(Faces(fs), boxW, boxH, srcW, srcH, measure);
      var sx := CanvasSize(boxW) as real / srcW as real;
      var sy := CanvasSize(boxH) as real / srcH as real;
      var b := Boxed(fs)[j].box.value;
      && |cmds| == 1 + 4 * |Boxed(fs)|
      && cmds[1 + 4 * j] == StrokeRect(ScaledBox(b, sx, sy), BoxColour, BoxLineWidth)
  {
    var sx := CanvasSize(boxW) as real / srcW as real;
    var sy := CanvasSize(boxH) as real / srcH as real;
    DetectionBody(fs, boxW, boxH, srcW, srcH, measure);
    DrawFacesAt(fs, sx, sy, measure, j);
  }

  /** With faces to draw and positive source dimensions, the clear is
      followed by the faces drawn at display/source scale. */
  lemma DetectionBody(fs: seq<Face>, boxW: real, boxH: real, srcW: nat, srcH: nat, measure: string -> real)
    requires boxW >= 0.0 && boxH >= 0.0 && srcW > 0 && srcH > 0 && |fs| > 0
    ensures DrawFaceDetection(Faces(fs), boxW, boxH, srcW, srcH, measure)
      == [ClearAll(CanvasSize(boxW), CanvasSize(boxH))]
         + DrawFaces(fs, CanvasSize(boxW) as real / srcW as real, CanvasSize(boxH) as real / srcH as real, measure)
  {
  }

  /** A box reported at (10, 20) of size 100 by 50 with `happy` at 0.87, in
      a 320 by 240 frame shown on a 640 by 480 overlay, is drawn at (20, 40)
      of size 200 by 100, labelled `happy 87%` with the smiling icon. */
  lemma DrawnExample(measure: string -> real)
    ensures var f := Face(Some([10.0, 20.0, 100.0, 50.0]), Some("happy"), Some(0.87));
      var cmds := DrawFaceDetection(Faces([f]), 640.0, 480.0, 320, 240, measure);
      && |cmds| == 5
      && cmds[1] == StrokeRect(Rect(20.0, 40.0, 200.0, 100.0), BoxColour, BoxLineWidth)
      && cmds[3].text == "happy 87%"
      && cmds[4].text == "😊"
  {
    var f := Face(Some([10.0, 20.0, 100.0, 50.0]), Some("happy"), Some(0.87));
    assert ScorePercent(f) == 87;
    assert IntToString(87) == "87" by {
      assert NatToString(8) == "8";
    }
    assert ToLower("happy") == "happy";
    DetectionBody([f], 640.0, 480.0, 320, 240, measure);
    var face := DrawFace(f, 2.0, 2.0, measure);
    ConcatMapSingle(f, FaceDrawer(2.0, 2.0, measure));
    FaceLabel(f, 2.0, 2.0, measure);
    var band := DrawEmotionLabel(20.0, 40.0, 200.0, "happy", 87, measure);
    assert face[1..] == band;
    assert band[1].text == "happy 87%";
    assert band[2].text == "😊";
  }

  /** `m:ss` for a playback position in seconds: whole minutes, then the
      remaining whole seconds padded to two digits. Division and `%` follow
      JavaScript (`%` keeps the dividend's sign). */
  function FormatTime(seconds: real): (s: string)
    ensures seconds >= 0.0 ==> |s| >= 4 && s[|s| - 3] == ':'
  {
    var mins := (seconds / 60.0).Floor;
    var secs := JsRem(seconds, 60.0).Floor;
    IntToString(mins) + ":" + PadStart(IntToString(secs), 2, '0')
  }

  /** JavaScript's `a % b` on numbers: the sign follows the dividend. */
  function JsRem(a: real, b: real): (r: real)
    requires b > 0.0
    ensures a >= 0.0 ==> 0.0 <= r < b
    ensures a < 0.0 ==> -b < r <= 0.0
  {
    if a >= 0.0 then FloorRem(a, b) else -FloorRem(-a, b)
  }

  /** `a - b * floor(a / b)`, which lies in `[0, b)`. */
  function FloorRem(a: real, b: real): (r: real)
    requires b > 0.0
    ensures 0.0 <= r < b
  {
    var f := (a / b).Floor as real;
    FloorRemBounds(a, b, a / b, f);
    a - b * f
  }

  lemma FloorRemBounds(a: real, b: real, q: real, f: real)
    requires b > 0.0 && q == a / b && f <= q < f + 1.0
    ensures 0.0 <= a - b * f < b
  {
    var d := q - f;
    assert b * d >= 0.0;
    assert b * d < b;
    assert a - b * f == b * d;
  }

  /** The whole seconds an `m:ss` string denotes. */
  function ClockSeconds(s: string): Option<int> {
    if |s| < 4 || s[|s| - 3] != ':' || !AllDigits(s[|s| - 2..]) then None
    else match ParseInt(s[..|s| - 3])
      case None => None
      case Some(m) =>
        var ss := DigitsValue(s[|s| - 2..]);
        if ss < 60 then Some(60 * m + ss) else None
  }

  /** For any non-negative position the seconds field is two digits in
      0..59, and the clock text denotes exactly the elapsed whole seconds. */
  lemma FormatTimeRoundTrip(seconds: real)
    requires seconds >= 0.0
    ensures ClockSeconds(FormatTime(seconds)) == Some(seconds.Floor)
  {
    var mins := (seconds / 60.0).Floor;
    var secs := JsRem(seconds, 60.0).Floor;
    ClockSplit(seconds);
    var digits := IntToString(secs);
    NatToStringRoundTrip(secs);
    PadWithZerosValue(digits, 2);
    IntToStringRoundTrip(mins);
    ClockOf(IntToString(mins), PadStart(digits, 2, '0'), mins);
  }

  /** A clock text read back: minutes, a colon, two digits. */
  lemma ClockOf(ms: string, ss: string, m: int)
    requires ParseInt(ms) == Some(m)
    requires |ss| == 2 && AllDigits(ss) && DigitsValue(ss) < 60
    ensures ClockSeconds(ms + ":" + ss) == Some(60 * m + DigitsValue(ss))
  {
    var s := ms + ":" + ss;
    assert s[..|s| - 3] == ms;
    assert s[|s| - 2..] == ss;
  }

  /** Minutes and remaining seconds of a non-negative position. */
  lemma ClockSplit(seconds: real)
    requires seconds >= 0.0
    ensures var mins := (seconds / 60.0).Floor;
      var secs := JsRem(seconds, 60.0).Floor;
      && mins >= 0 && 0 <= secs < 60 && 60 * mins + secs == seconds.Floor
  {
    var mins := (seconds / 60.0).Floor;
    assert JsRem(seconds, 60.0) == FloorRem(seconds, 60.0) == seconds - 60.0 * (mins as real);
    FloorShift(seconds, 60 * mins);
  }

  /** Subtracting a whole number shifts the floor by that number. */
  lemma FloorShift(x: real, k: int)
    ensures (x - k as real).Floor == x.Floor - k
  {
  }

  /** A parsed detection response as the popup reads it: `results` is
      absent on an error response; each result contributes its `faces`. */
  datatype Body = Body(results: Option<seq<FacesArg>>)

  /** `data.results[0].faces || []`, read only when `results` is present and
      non-empty. */
  function FirstFaces(body: Body): (r: Option<FacesArg>)
    ensures r.None? <==> body.results.None? || |body.results.value| == 0
    ensures r.Some? ==> !r.value.Absent?
    ensures r.Some? && !body.results.value[0].Absent? ==> r.value == body.results.value[0]
  {
    match body.results
    case None => None
    case Some(rs) => if |rs| == 0 then None else if rs[0].Absent? then Some(Faces([])) else Some(rs[0])
  }

  /** `naturalWidth || width`. */
  function SourceSize(natural: nat, shown: nat): (n: nat)
    ensures natural > 0 ==> n == natural
    ensures natural == 0 ==> n == shown
  {
    if natural > 0 then natural else shown
  }

  /** `drawImageDetection` once the preview has loaded: a response without
      results leaves the overlay as it was; otherwise the first result's
      faces are drawn against the image's natural size. */
  function DrawImageDetection(body: Body, naturalW: nat, naturalH: nat, shownW: nat, shownH: nat,
                              boxW: real, boxH: real, measure: string -> real): (cmds: seq<Cmd>)
    requires boxW >= 0.0 && boxH >= 0.0
    ensures FirstFaces(body).None? ==> cmds == []
    ensures FirstFaces(body).Some? ==> |cmds| >= 1 && cmds[0] == ClearAll(CanvasSize(boxW), CanvasSize(boxH))
  {
    match FirstFaces(body)
    case None => []
    case Some(faces) =>
      DrawFaceDetection(faces, boxW, boxH, SourceSize(naturalW, shownW), SourceSize(naturalH, shownH), measure)
  }

  /** When the first result carries faces and the image has a non-zero
      source size, the `j`-th drawable face's box is drawn scaled by the
      overlay size over `naturalWidth || width` (and likewise in height),
      after the clear and four commands per drawable face. */
  lemma ImageFacesScaled(body: Body, naturalW: nat, naturalH: nat, shownW: nat, shownH: nat,
                         boxW: real, boxH: real, measure: string -> real, fs: seq<Face>, j: nat)
    requires boxW >= 0.0 && boxH >= 0.0
    requires body.results.Some? && |body.results.value| > 0 && body.results.value[0] == Faces(fs)
    requires SourceSize(naturalW, shownW) > 0 && SourceSize(naturalH, shownH) > 0
    requires j < |Boxed(fs)|
    ensures var cmds := DrawImageDetection(body, naturalW, naturalH, shownW, shownH, boxW, boxH, measure);
      var sx := CanvasSize(boxW) as real / SourceSize(naturalW, shownW) as real;
      var sy := CanvasSize(boxH) as real / SourceSize(naturalH, shownH) as real;
      && |cmds| == 1 + 4 * |Boxed(fs)|
      && cmds[1 + 4 * j] == StrokeRect(ScaledBox(Boxed(fs)[j].box.value, sx, sy), BoxColour, BoxLineWidth)
  {
    ScaledBoxes(fs, boxW, boxH, SourceSize(naturalW, shownW), SourceSize(naturalH, shownH), measure, j);
  }

  /** A first result without `faces` (read as `[]`), with an empty or
      non-array `faces`, or an image of zero source size, only clears the
      overlay. */
  lemma ImageOnlyClears(body: Body, naturalW: nat, naturalH: nat, shownW: nat, shownH: nat,
                        boxW: real, boxH: real, measure: string -> real)
    requires boxW >= 0.0 && boxH >= 0.0
    requires body.results.Some? && |body.results.value| > 0
    requires var f := body.results.value[0];
      f.Absent? || f.NotAnArray? || f.items == [] || SourceSize(naturalW, shownW) == 0 || SourceSize(naturalH, shownH) == 0
    ensures DrawImageDetection(body, naturalW, naturalH, shownW, shownH, boxW, boxH, measure)
      == [ClearAll(CanvasSize(boxW), CanvasSize(boxH))]
  {
  }
}

=== FILE: ranking.dfy ===
/** The in-page renderer's two readings of a face's `emotions` object, taken
    as its `Object.entries` list of (name, confidence) pairs in enumeration
    order: the dominant emotion of the label, and the ranked rows of the
    detail panel. */
module Ranking {
  import opened Text

  type Entries = seq<(string, real)>

  /** The accumulator of the dominant-emotion fold. */
  datatype Pick = Pick(emotion: string, confidence: real)

  const NoPick := Pick("", 0.0)

  /** The fold `(max, [e, c]) => c > max.confidence ? {e, c} : max` from
      `{emotion: '', confidence: 0}`, left to right. */
  function Dominant(es: Entries): (p: Pick)
    ensures p.confidence >= 0.0
    ensures forall j :: 0 <= j < |es| ==> es[j].1 <= p.confidence
    ensures p == NoPick || exists i :: 0 <= i < |es| && es[i] == (p.emotion, p.confidence)
    decreases |es|
  {
    if |es| == 0 then NoPick
    else
      var m := Dominant(es[..|es| - 1]);
      var last := es[|es| - 1];
      if last.1 > m.confidence then Pick(last.0, last.1) else m
  }

  /** Entry `i` is the first entry of greatest confidence, and that
      confidence is positive. */
  predicate FirstMaxAt(es: Entries, i: int) {
    && 0 <= i < |es|
    && es[i].1 > 0.0
    && (forall j :: 0 <= j < |es| ==> es[j].1 <= es[i].1)
    && (forall j :: 0 <= j < i ==> es[j].1 < es[i].1)
  }

  /** The fold picks the first entry of greatest confidence: ties go to the
      entry seen first. */
  lemma {:induction false} DominantIsFirstMax(es: Entries, i: int)
    requires FirstMaxAt(es, i)
    ensures Dominant(es) == Pick(es[i].0, es[i].1)
    decreases |es|
  {
    var pre := es[..|es| - 1];
    var m := Dominant(pre);
    if i == |es| - 1 {
      if m != NoPick {
        var k :| 0 <= k < |pre| && pre[k] == (m.emotion, m.confidence);
        assert es[k] == pre[k];
      }
      assert m.confidence < es[i].1;
    } else {
      assert FirstMaxAt(pre, i) by {
        forall j | 0 <= j < |pre| ensures pre[j].1 <= pre[i].1 {
          assert pre[j] == es[j];
        }
      }
      DominantIsFirstMax(pre, i);
    }
  }

  /** When no confidence is positive, no emotion is chosen. */
  lemma DominantNone(es: Entries)
    requires forall j :: 0 <= j < |es| ==> es[j].1 <= 0.0
    ensures Dominant(es) == NoPick
  {
  }

  /** Some confidence is positive exactly when the fold moves off its
      initial value, and then it stops at the first greatest entry. */
  lemma {:induction false} DominantChoosesSome(es: Entries)
    requires exists j :: 0 <= j < |es| && es[j].1 > 0.0
    ensures exists i :: FirstMaxAt(es, i) && Dominant(es) == Pick(es[i].0, es[i].1)
  {
    var p := Dominant(es);
    var k :| 0 <= k < |es| && es[k].1 > 0.0;
    assert p != NoPick;
    var i0 :| 0 <= i0 < |es| && es[i0] == (p.emotion, p.confidence);
    var i := FirstAtLeast(es, p.confidence);
    assert FirstMaxAt(es, i);
    DominantIsFirstMax(es, i);
  }

  /** The first index whose confidence reaches `c`. */
  function FirstAtLeast(es: Entries, c: real): (i: nat)
    requires exists j :: 0 <= j < |es| && es[j].1 >= c
    ensures i < |es| && es[i].1 >= c
    ensures forall j :: 0 <= j < i ==> es[j].1 < c
    decreases |es|
  {
    if es[0].1 >= c then 0
    else
      assert exists j :: 0 <= j < |es[1..]| && es[1..][j].1 >= c by {
        var j :| 0 <= j < |es| && es[j].1 >= c;
        assert es[1..][j - 1] == es[j];
      }
      1 + FirstAtLeast(es[1..], c)
  }

  /** Two equally confident emotions: the first one listed wins. */
  lemma TieGoesToFirst()
    ensures Dominant([("a", 0.4), ("b", 0.4), ("c", 0.2)]) == Pick("a", 0.4)
  {
    DominantIsFirstMax([("a", 0.4), ("b", 0.4), ("c", 0.2)], 0);
  }

  // ---------------------------------------------------------------------
  // The detail panel's ranking: `sort(([, a], [, b]) => b - a)`, a stable
  // sort on descending confidence, then `slice(0, 5)`.

  predicate Descending(s: Entries) {
    forall i, j :: 0 <= i < j < |s| ==> s[i].1 >= s[j].1
  }

  /** Insert `x` ahead of the first entry that is not more confident. */
  function Insert(x: (string, real), s: Entries): (r: Entries)
    ensures |r| == |s| + 1
    ensures multiset(r) == multiset(s) + multiset{x}
    decreases |s|
  {
    if |s| == 0 || x.1 >= s[0].1 then [x] + s
    else
      assert s == [s[0]] + s[1..];
      [s[0]] + Insert(x, s[1..])
  }

  lemma {:induction false} InsertDescending(x: (string, real), s: Entries)
    requires Descending(s)
    ensures Descending(Insert(x, s))
    decreases |s|
  {
    if |s| > 0 && x.1 < s[0].1 {
      var t := Insert(x, s[1..]);
      InsertDescending(x, s[1..]);
      forall k | 0 <= k < |t| ensures t[k].1 <= s[0].1 {
        assert t[k] in multiset(t);
        if t[k] != x {
          assert t[k] in multiset(s[1..]);
          var m :| 0 <= m < |s[1..]| && s[1..][m] == t[k];
          assert s[m + 1] == t[k];
        }
      }
      var r := [s[0]] + t;
      forall i, j | 0 <= i < j < |r| ensures r[i].1 >= r[j].1 {
        if i > 0 {
          assert r[i] == t[i - 1] && r[j] == t[j - 1];
        } else {
          assert r[j] == t[j - 1];
        }
      }
    }
  }

  /** The entries ranked by descending confidence. */
  function SortDesc(es: Entries): (r: Entries)
    ensures multiset(r) == multiset(es)
    ensures Descending(r)
    decreases |es|
  {
    if |es| == 0 then []
    else
      assert es == [es[0]] + es[1..];
      InsertDescending(es[0], SortDesc(es[1..]));
      Insert(es[0], SortDesc(es[1..]))
  }

  /** The entries of confidence exactly `c`, in order. */
  function WithConfidence(s: Entries, c: real): (r: Entries)
    ensures |r| <= |s|
    decreases |s|
  {
    if |s| == 0 then []
    else (if s[0].1 == c then [s[0]] else []) + WithConfidence(s[1..], c)
  }

  lemma {:induction false} InsertKeepsTies(x: (string, real), s: Entries, c: real)
    ensures WithConfidence(Insert(x, s), c) == (if x.1 == c then [x] else []) + WithConfidence(s, c)
    decreases |s|
  {
    if |s| == 0 || x.1 >= s[0].1 {
      WithConfidenceCons(x, s, c);
    } else {
      var t := Insert(x, s[1..]);
      InsertKeepsTies(x, s[1..], c);
      WithConfidenceCons(s[0], t, c);
      assert s == [s[0]] + s[1..];
      WithConfidenceCons(s[0], s[1..], c);
      // `x` ranks below `s[0]`, so at most one of them has confidence `c`.
      assert x.1 != c || s[0].1 != c;
    }
  }

  lemma WithConfidenceCons(y: (string, real), t: Entries, c: real)
    ensures WithConfidence([y] + t, c) == (if y.1 == c then [y] else []) + WithConfidence(t, c)
  {
    assert ([y] + t)[1..] == t;
  }

  /** The sort is stable: entries of equal confidence keep their order. */
  lemma {:induction false} SortDescStable(es: Entries, c: real)
    ensures WithConfidence(SortDesc(es), c) == WithConfidence(es, c)
    decreases |es|
  {
    if |es| > 0 {
      InsertKeepsTies(es[0], SortDesc(es[1..]), c);
      SortDescStable(es[1..], c);
    }
  }

  const DetailRows := 5

  /** The rows the detail panel shows. */
  function TopRows(es: Entries): (r: Entries)
    ensures |r| == if |es| <= DetailRows then |es| else DetailRows
    ensures Descending(r)
    ensures forall k :: 0 <= k < |r| ==> r[k] in multiset(es)
  {
    var s := SortDesc(es);
    assert forall k :: 0 <= k < |s| ==> s[k] in multiset(es);
    if |s| <= DetailRows then s else s[..DetailRows]
  }

  /** No entry left out of the panel is more confident than one shown. */
  lemma TopRowsAreTop(es: Entries)
    ensures var s := SortDesc(es);
      var r := TopRows(es);
      r <= s && forall i, j :: 0 <= i < |r| <= j < |s| ==> s[j].1 <= r[i].1
  {
  }
}

=== FILE: text.dfy ===
/** The string conversions the renderers rely on: JavaScript's decimal
    rendering of integers (`String(n)`, template interpolation), the
    `toFixed` rendering of numbers, `Number(...)` applied to such a rendering,
    `Math.round`, `padStart`, and `toLowerCase` on ASCII letters.
    Each rendering is paired with a parser and a round-trip lemma. */
module Text {
  import opened Base

  predicate IsDigit(c: char) {
    '0' <= c <= '9'
  }

  predicate AllDigits(s: string) {
    forall i :: 0 <= i < |s| ==> IsDigit(s[i])
  }

  function DigitValue(c: char): nat
    requires IsDigit(c)
  {
    (c as int) - ('0' as int)
  }

  function DigitChar(d: nat): (c: char)
    requires d < 10
    ensures IsDigit(c) && DigitValue(c) == d
  {
    (('0' as int) + d) as char
  }

  /** The number a string of decimal digits denotes (most significant first). */
  function DigitsValue(s: string): nat
    requires AllDigits(s)
  {
    if |s| == 0 then 0 else DigitsValue(s[..|s| - 1]) * 10 + DigitValue(s[|s| - 1])
  }

  /** A digit string without a superfluous leading zero. */
  predicate Canonical(s: string) {
    1 <= |s| && AllDigits(s) && (s[0] == '0' ==> |s| == 1)
  }

  /** `String(n)` for a non-negative integer. */
  function NatToString(n: nat): (s: string)
    ensures Canonical(s)
    ensures |s| == 1 <==> n < 10
  {
    if n < 10 then [DigitChar(n)] else NatToString(n / 10) + [DigitChar(n % 10)]
  }

  lemma {:induction false} NatToStringRoundTrip(n: nat)
    ensures DigitsValue(NatToString(n)) == n
  {
    if n >= 10 {
      var s := NatToString(n);
      assert s[..|s| - 1] == NatToString(n / 10);
      NatToStringRoundTrip(n / 10);
    }
  }

  lemma {:induction false} CanonicalPositive(s: string)
    requires Canonical(s) && s[0] != '0'
    ensures DigitsValue(s) >= 1
  {
    if |s| > 1 {
      CanonicalPositive(s[..|s| - 1]);
    }
  }

  /** The other direction: every canonical digit string is some number's rendering. */
  lemma {:induction false} CanonicalRoundTrip(s: string)
    requires Canonical(s)
    ensures NatToString(DigitsValue(s)) == s
  {
    var v := DigitsValue(s);
    if |s| > 1 {
      var p := s[..|s| - 1];
      CanonicalPositive(p);
      CanonicalRoundTrip(p);
      assert v / 10 == DigitsValue(p);
      assert v % 10 == DigitValue(s[|s| - 1]);
      assert s == p + [s[|s| - 1]];
    }
  }

  /** `String(i)` for any integer: a minus sign, then the magnitude. */
  function IntToString(i: int): (s: string)
    ensures i >= 0 ==> Canonical(s)
    ensures i < 0 ==> |s| >= 2 && s[0] == '-' && Canonical(s[1..])
  {
    if i < 0 then "-" + NatToString(-i) else NatToString(i)
  }

  /** The integer a string of an optional minus sign and digits denotes. */
  function ParseInt(s: string): Option<int> {
    if 2 <= |s| && s[0] == '-' && AllDigits(s[1..]) then Some(-(DigitsValue(s[1..]) as int))
    else if 1 <= |s| && AllDigits(s) then Some(DigitsValue(s))
    else None
  }

  lemma IntToStringRoundTrip(i: int)
    ensures ParseInt(IntToString(i)) == Some(i)
  {
    if i < 0 {
      var t := NatToString(-i);
      NatToStringRoundTrip(-i);
      ParseNegative(t);
    } else {
      var t := NatToString(i);
      NatToStringRoundTrip(i);
      assert t[0] != '-';
    }
  }

  lemma ParseNegative(t: string)
    requires 1 <= |t| && AllDigits(t)
    ensures ParseInt("-" + t) == Some(-(DigitsValue(t) as int))
  {
    assert ("-" + t)[1..] == t;
  }

  /** `s.padStart(n, [c])`: `c` repeated in front until the length is `n`. */
  function PadStart(s: string, n: nat, c: char): (r: string)
    ensures |s| >= n ==> r == s
    ensures |s| < n ==> |r| == n && r[n - |s|..] == s
    ensures forall i :: 0 <= i < |r| - |s| ==> r[i] == c
    decreases n - |s|
  {
    if |s| >= n then s else PadStart([c] + s, n, c)
  }

  lemma {:induction false} LeadingZerosValue(z: nat, s: string)
    requires AllDigits(s)
    ensures AllDigits(Zeros(z) + s) && DigitsValue(Zeros(z) + s) == DigitsValue(s)
  {
    if z > 0 {
      LeadingZerosValue(z - 1, s);
      var t := Zeros(z - 1) + s;
      assert Zeros(z) + s == ['0'] + t;
      ZeroPrefixValue(t);
    } else {
      assert Zeros(z) + s == s;
    }
  }

  function Zeros(z: nat): (r: string)
    ensures |r| == z && forall i :: 0 <= i < z ==> r[i] == '0'
  {
    if z == 0 then [] else ['0'] + Zeros(z - 1)
  }

  lemma {:induction false} ZeroPrefixValue(t: string)
    requires AllDigits(t)
    ensures AllDigits(['0'] + t) && DigitsValue(['0'] + t) == DigitsValue(t)
  {
    if |t| > 0 {
      var s := ['0'] + t;
      assert s[..|s| - 1] == ['0'] + t[..|t| - 1];
      ZeroPrefixValue(t[..|t| - 1]);
    }
  }

  lemma PadWithZerosValue(s: string, n: nat)
    requires AllDigits(s)
    ensures AllDigits(PadStart(s, n, '0'))
    ensures DigitsValue(PadStart(s, n, '0')) == DigitsValue(s)
  {
    var r := PadStart(s, n, '0');
    if |s| < n {
      assert r == Zeros(n - |s|) + s;
      LeadingZerosValue(n - |s|, s);
    }
  }

  /** Splitting a digit string: the high part is scaled by ten per low digit. */
  lemma {:induction false} DigitsValueSplit(a: string, b: string)
    requires AllDigits(a) && AllDigits(b)
    ensures AllDigits(a + b)
    ensures DigitsValue(a + b) == DigitsValue(a) * Pow10(|b|) + DigitsValue(b)
  {
    if |b| > 0 {
      var b' := b[..|b| - 1];
      assert (a + b)[..|a + b| - 1] == a + b';
      assert b[..|b| - 1] == b';
      DigitsValueSplit(a, b');
      ShiftDigit(DigitsValue(a), Pow10(|b'|), DigitsValue(b'), DigitValue(b[|b| - 1]));
    } else {
      assert a + b == a;
    }
  }

  lemma ShiftDigit(va: nat, p: nat, vb: nat, last: nat)
    ensures (va * p + vb) * 10 + last == va * (10 * p) + (vb * 10 + last)
  {
  }

  function Pow10(d: nat): (p: nat)
    ensures p >= 1
  {
    if d == 0 then 1 else 10 * Pow10(d - 1)
  }

  /** `Math.round(x)`: the nearest integer, halves rounded up. */
  function RoundHalfUp(x: real): (n: int)
    ensures (n as real) - 0.5 <= x < (n as real) + 0.5
  {
    (x + 0.5).Floor
  }

  lemma RoundHalfUpMonotone(x: real, y: real)
    requires x <= y
    ensures RoundHalfUp(x) <= RoundHalfUp(y)
  {
  }

  /** The signed count of units of 10^-d that `x.toFixed(d)` spells out:
      the magnitude is rounded to nearest, ties away from zero, and the
      sign is that of `x`. */
  function FixedUnits(x: real, d: nat): (n: int)
    ensures -0.5 <= (n as real) - x * (Pow10(d) as real) <= 0.5
    ensures x >= 0.0 ==> n >= 0
    ensures x < 0.0 ==> n <= 0
  {
    if x < 0.0 then -RoundHalfUp(-x * Pow10(d) as real) else RoundHalfUp(x * Pow10(d) as real)
  }

  function Abs(n: int): nat {
    if n < 0 then -n else n
  }

  /** The unsigned part of `x.toFixed(d)` for a magnitude of `n` units of
      10^-d: at least one integer digit, then, when `d > 0`, a point and
      exactly `d` fraction digits. */
  function FixedMagnitude(n: nat, d: nat): (s: string)
    ensures 1 <= |s| && IsDigit(s[0])
  {
    var digits := PaddedDigits(n, d);
    if d == 0 then digits else digits[..|digits| - d] + "." + digits[|digits| - d..]
  }

  function PaddedDigits(n: nat, d: nat): (s: string)
    ensures |s| >= d + 1 && AllDigits(s) && DigitsValue(s) == n
  {
    NatToStringRoundTrip(n);
    PadWithZerosValue(NatToString(n), d + 1);
    PadStart(NatToString(n), d + 1, '0')
  }

  /** `x.toFixed(d)` in fixed-point notation, which JavaScript uses for
      |x| below 10^21. */
  function ToFixed(x: real, d: nat): (s: string)
  {
    SignedFixed(FixedUnits(x, d), x < 0.0, d)
  }

  /** A minus sign when `negative`, then the magnitude of `n` units of 10^-d. */
  function SignedFixed(n: int, negative: bool, d: nat): string {
    if negative then ['-'] + FixedMagnitude(Abs(n), d) else FixedMagnitude(Abs(n), d)
  }

  /** Index of the first '.' in `s`, or `|s|` when there is none. */
  function DotIndex(s: string): (k: nat)
    ensures k <= |s|
    ensures k < |s| ==> s[k] == '.'
    ensures forall i :: 0 <= i < k ==> s[i] != '.'
  {
    if |s| == 0 || s[0] == '.' then 0 else 1 + DotIndex(s[1..])
  }

  /** The value `Number(s)` gives to an unsigned decimal `digits[.digits]`;
      `None` for anything else. */
  function ParseUnsignedDecimal(s: string): Option<real> {
    var k := DotIndex(s);
    if k == 0 || !AllDigits(s[..k]) then None
    else if k == |s| then Some(DigitsValue(s) as real)
    else if k + 1 == |s| || !AllDigits(s[k + 1..]) then None
    else Some(PointValue(s[..k], s[k + 1..]))
  }

  /** The value of the decimal `whole.frac`. */
  function PointValue(whole: string, frac: string): real
    requires AllDigits(whole) && AllDigits(frac)
  {
    DigitsValue(whole) as real + (DigitsValue(frac) as real) / (Pow10(|frac|) as real)
  }

  /** The value `Number(s)` gives to a decimal with an optional leading minus. */
  function ParseDecimal(s: string): Option<real> {
    if 1 <= |s| && s[0] == '-' then
      match ParseUnsignedDecimal(s[1..])
      case Some(v) => Some(-v)
      case None => None
    else ParseUnsignedDecimal(s)
  }

  lemma FixedDigitsNoDot(s: string)
    requires AllDigits(s)
    ensures DotIndex(s) == |s|
  {
    if DotIndex(s) < |s| {
      assert IsDigit(s[DotIndex(s)]);
    }
  }

  lemma ParsePlain(a: string)
    requires 1 <= |a| && AllDigits(a)
    ensures ParseUnsignedDecimal(a) == Some(DigitsValue(a) as real)
  {
    FixedDigitsNoDot(a);
  }

  lemma {:induction false} DotIndexAfterDigits(a: string, rest: string)
    requires AllDigits(a)
    ensures DotIndex(a + rest) == |a| + DotIndex(rest)
  {
    if |a| > 0 {
      assert (a + rest)[1..] == a[1..] + rest;
      DotIndexAfterDigits(a[1..], rest);
    } else {
      assert a + rest == rest;
    }
  }

  lemma ParsePointed(a: string, b: string)
    requires 1 <= |a| && AllDigits(a) && 1 <= |b| && AllDigits(b)
    ensures ParseUnsignedDecimal(a + "." + b) == Some(PointValue(a, b))
  {
    var t := a + ("." + b);
    assert a + "." + b == t;
    DotIndexAfterDigits(a, "." + b);
    var k := DotIndex(t);
    assert k == |a|;
    assert t[..k] == a;
    assert t[k + 1..] == b;
  }

  lemma ScaledSum(va: real, vb: real, p: real)
    requires p > 0.0
    ensures va + vb / p == (va * p + vb) / p
  {
  }

  lemma FixedMagnitudeValue(n: nat, d: nat)
    ensures ParseUnsignedDecimal(FixedMagnitude(n, d)) == Some((n as real) / (Pow10(d) as real))
  {
    var digits := PaddedDigits(n, d);
    if d == 0 {
      ParsePlain(digits);
      assert Pow10(d) == 1;
    } else {
      assert FixedMagnitude(n, d) == digits[..|digits| - d] + "." + digits[|digits| - d..];
      PointedDigitsValue(digits, d);
    }
  }

  /** Putting a point `d` digits from the end of a digit string divides
      its value by 10^d. */
  lemma PointedDigitsValue(digits: string, d: nat)
    requires 1 <= d < |digits| && AllDigits(digits)
    ensures ParseUnsignedDecimal(digits[..|digits| - d] + "." + digits[|digits| - d..])
      == Some((DigitsValue(digits) as real) / (Pow10(d) as real))
  {
    var a := digits[..|digits| - d];
    var b := digits[|digits| - d..];
    assert digits == a + b;
    assert AllDigits(a) && AllDigits(b);
    assert |b| == d;
    ParsePointed(a, b);
    SplitPointValue(a, b);
    assert PointValue(a, b) == (DigitsValue(digits) as real) / (Pow10(d) as real);
  }

  /** Reading `a.b` is reading the digits `ab` scaled down by the fraction length. */
  lemma SplitPointValue(a: string, b: string)
    requires AllDigits(a) && AllDigits(b)
    ensures AllDigits(a + b)
    ensures PointValue(a, b) == (DigitsValue(a + b) as real) / (Pow10(|b|) as real)
  {
    DigitsValueSplit(a, b);
    ScaledIntAsReal(DigitsValue(a + b), DigitsValue(a), DigitsValue(b), Pow10(|b|));
  }

  lemma ScaledIntAsReal(n: nat, va: nat, vb: nat, p: nat)
    requires p >= 1 && n == va * p + vb
    ensures (n as real) / (p as real) == (va as real) + (vb as real) / (p as real)
  {
    IntSumAsReal(va, vb, p);
    ScaledSum(va as real, vb as real, p as real);
  }

  lemma IntSumAsReal(va: nat, vb: nat, p: nat)
    ensures ((va * p + vb) as real) == (va as real) * (p as real) + (vb as real)
  {
  }

  /** The number `x.toFixed(d)` denotes: the rounded magnitude, signed like `x`. */
  function FixedValue(x: real, d: nat): real {
    var m := (Abs(FixedUnits(x, d)) as real) / (Pow10(d) as real);
    if x < 0.0 then -m else m
  }

  /** `Number(x.toFixed(d))` is the rounded value of `x`. */
  lemma ToFixedRoundTrip(x: real, d: nat)
    ensures ParseDecimal(ToFixed(x, d)) == Some(FixedValue(x, d))
  {
    var n := Abs(FixedUnits(x, d));
    FixedMagnitudeValue(n, d);
    if x >= 0.0 {
      ParseUnnegated(FixedMagnitude(n, d), (n as real) / (Pow10(d) as real));
    } else {
      var t := FixedMagnitude(n, d);
      assert ToFixed(x, d) == ['-'] + t;
      assert (['-'] + t)[1..] == t;
    }
  }

  /** A negative number renders as a minus sign before its magnitude's rendering. */
  lemma NegativeToFixed(x: real, d: nat)
    requires x < 0.0
    ensures ToFixed(x, d) == ['-'] + ToFixed(-x, d)
    ensures FixedValue(x, d) == -FixedValue(-x, d)
  {
  }

  lemma ParseUnnegated(body: string, v: real)
    requires 1 <= |body| && IsDigit(body[0])
    requires ParseUnsignedDecimal(body) == Some(v)
    ensures ParseDecimal(body) == Some(v)
  {
  }

  predicate IsUpper(c: char) {
    'A' <= c <= 'Z'
  }

  function LowerChar(c: char): (r: char)
    ensures !IsUpper(r)
    ensures !IsUpper(c) ==> r == c
    ensures IsUpper(c) ==> r as int == c as int + 32
  {
    if IsUpper(c) then ((c as int) + 32) as char else c
  }

  /** `s.toLowerCase()` restricted to the ASCII capitals. */
  function ToLower(s: string): (r: string)
    ensures |r| == |s|
    ensures forall i :: 0 <= i < |r| ==> !IsUpper(r[i])
    ensures forall i :: 0 <= i < |r| && !IsUpper(s[i]) ==> r[i] == s[i]
  {
    seq(|s|, i requires 0 <= i < |s| => LowerChar(s[i]))
  }

  /** `s.slice(0, k)`. */
  function Prefix(s: string, k: nat): (r: string)
    ensures |r| == if |s| <= k then |s| else k
    ensures r <= s
  {
    if |s| <= k then s else s[..k]
  }
}
